=== FILE: README.md ===
# sapiens-blender naming, path and registry rules in Dafny

sapiens-blender is a Blender add-on for preparing Sapiens mod assets. Most of
it drives Blender: it selects objects, calls the glTF exporter and builds
shader nodes. Under that glue sit a handful of plain rules, and this project
models them as pure functions over strings, sequences and maps. It then
proves what the rules guarantee:

- **Export paths.** The export folder is the `.blend` file's directory, or the
  sibling `models` directory when that directory is called `blends` (any
  case). A model's path is that folder joined with the file's stem. The shared
  material registry is `<grandparent>/hammerstone/shared/blender_materials.json`.
  See `paths.dfy`.
- **Export Parts.** `get_model_name` keeps the text before the first `.`, then
  before the first `_`. The export loop exports one `.glb` per model name,
  taken from the first mesh that maps to it. See `naming.dfy` and
  `export_parts.dfy`.
- **Export Empties.** `get_empty_name` takes the segment after the first `_`
  and numbers empties per base with a counter dictionary. The operator
  renames each mesh to `<name>_original`, exports empties and cameras, and
  then restores the names. See `naming.dfy` and `export_empties.dfy`.
- **Apply Type.** An empty's display type follows keywords in its
  lower-cased name: `box`/`cube` first, then `sphere`/`seat`/`radius`, then
  `store`. Otherwise the current type is kept. See `empty_types.dfy`.
- **Remove Duplicates.** A material named `base.ddd` is merged into `base`
  when `base` exists: mesh slots are redirected and the duplicate is deleted.
  Otherwise it is renamed to `base`. See `duplicate_materials.dfy`.
- **Material registry.** `MaterialFile` indexes JSON records by `identifier`
  in dict insertion order, with the last record winning; identifiers Python
  finds equal, such as `true` and `1`, share one entry. Writing a material is
  an upsert of its record, with values rounded to three decimals, and saving
  writes the records back as a list. Export Materials and Import Materials
  are built on it. Importing a record fails unless its identifier is a string
  and its values fit the shader inputs. See `material_file.dfy`.

`wrappers.dfy` holds `Option`, `Result` and the Python exceptions that can
escape. `text.dfy` holds the string helpers (`in`, `split`, `lower`, decimal
digits), and `scene.dfy` holds the abstract scene objects.

The following are parameters of the model rather than computations:

- whether the `.blend` file exists on disk;
- the registry file's parsed JSON contents (`None` when the file is missing);
- the scene, as a sequence of objects in iteration order;
- each material's Principled BSDF inputs.

Paths are pathlib paths already split into an anchor and components. The
model uses Python 3.11 pathlib rules: a suffix needs a `.` that neither starts
nor ends the name, and the parent of an anchor is the anchor itself.

## Model

| member | source | states |
|---|---|---|
| Paths.Stem | sapiens-blender/__init__.py:20 | `Path.stem` plus the suffix gives back the name; the suffix is empty or one `.` with no further dot; a non-empty name has a non-empty stem |
| Paths.ExportFolder | sapiens-blender/__init__.py:8-17 | there is a folder exactly when the file exists; under a `blends` directory (any case) it is the grandparent's `models` directory, otherwise the file's own directory |
| Paths.ExportFolderNeverBlends | sapiens-blender/__init__.py:14-15 | the chosen export folder is never itself called `blends` |
| Paths.ExportFolderStable | sapiens-blender/__init__.py:14-15 | a `.blend` saved inside its own export folder exports into that same folder |
| Paths.ExportPathAsWritten | sapiens-blender/__init__.py:19-20 | fails with TypeError exactly when the file is missing; otherwise it agrees with the corrected export path |
| Paths.ExportPath | sapiens-blender/__init__.py:19-20 | there is a path exactly when the file exists; its parent is the export folder and its name is the blend's stem |
| Paths.ExportPathMissingFile | sapiens-blender/__init__.py:8-20 | for a missing file the code as written raises TypeError, while the corrected path is absent |
| Paths.MaterialFilePath | sapiens-blender/__init__.py:22-24 | the registry is `blender_materials.json` in `shared` in `hammerstone` under the blend's grandparent, and a well-formed path stays well formed |
| Naming.ModelName | sapiens-blender/__init__.py:38-45 | the model name is a prefix of the mesh name, holds no `.` or `_`, and ends at the end of the name or at a `.` or `_` |
| Naming.ModelNameUnique | sapiens-blender/__init__.py:38-45 | any prefix with those three properties is the model name, so the name is determined by them |
| Naming.ModelNameIdempotent | sapiens-blender/__init__.py:38-45 | deriving the model name of a model name changes nothing |
| Naming.EmptyBase | sapiens-blender/__init__.py:333-337 | an empty's base holds no `.` and no `_` |
| Naming.EmptyBaseOfSegments | sapiens-blender/__init__.py:333-337 | for a name `pre_base[_more][.tail]` the base is the segment after the first `_` |
| Naming.EmptyBaseOfPair | sapiens-blender/__init__.py:333-337 | the base of `a_b` is `b` |
| Naming.EmptyBaseOfLabel | sapiens-blender/__init__.py:333-342 | an empty's own name `base_N`, read as a mesh name, has the all-digit counter `N` as its base |
| Naming.EmptyBaseWithoutUnderscore | sapiens-blender/__init__.py:333-337 | a name with no `_` before its first `.` has as base everything before that `.` |
| Naming.ParseEmptyLabelRoundTrip | sapiens-blender/__init__.py:342 | `f"{base}_{index}"` splits back into the same base and counter when the base has no `_` |
| Naming.EmptyLabelInjective | sapiens-blender/__init__.py:342 | two empty names from `_`-free bases are equal only for equal bases and counters |
| Naming.EmptyName | sapiens-blender/__init__.py:332-342 | the base's counter goes up by one from 0 when absent; no other counter changes; the name is the base, `_`, and the new count |
| Naming.EmptyNameParses | sapiens-blender/__init__.py:339-342 | an empty's name reads back as its mesh's base and the updated count |
| ExportParts.Claims | sapiens-blender/__init__.py:63-82 | every recorded model name was claimed by a mesh of the scene that maps to it |
| ExportParts.ClaimsWellClaimed | sapiens-blender/__init__.py:63-82 | the recorded model names are pairwise distinct and claimed in iteration order; each is claimed by the first mesh mapping to it; every mesh's model name is recorded |
| ExportParts.ExportedModels | sapiens-blender/__init__.py:63-82 | the exported model names are distinct, and a name is exported if and only if some mesh maps to it |
| ExportParts.NoMeshNoModels | sapiens-blender/__init__.py:63-70 | nothing is exported if and only if the scene has no mesh |
| ExportParts.PartFilesDistinct | sapiens-blender/__init__.py:88 | for model names without `/`: distinct names give distinct `.glb` files, each directly in the export folder and named `<model>.glb` |
| ExportParts.ExecuteAsWritten | sapiens-blender/__init__.py:47-105 | a missing file cancels; a saved scene without meshes ends in UnboundLocalError; a saved scene with a mesh finishes exactly as the corrected operator does, and any finished run is the corrected one |
| ExportParts.Execute | sapiens-blender/__init__.py:47-105 | cancels exactly when the file is missing; exports each model name once, for exactly the names some mesh maps to; the i-th file is the export folder joined with `<model>.glb` for the i-th name; reports a path only when something was written, and then it is the last file written |
| ExportParts.NoMeshesFails | sapiens-blender/__init__.py:63-104 | a scene holding only a camera raises UnboundLocalError as written, and finishes with nothing exported once corrected |
| ExportEmpties.MeshIndices | sapiens-blender/__init__.py:355-356 | exactly the positions of the meshes, in increasing order |
| ExportEmpties.EmptyNames | sapiens-blender/__init__.py:353-361 | each name generated in the run is its mesh's base joined to the counter handed out for it |
| ExportEmpties.CountAfter | sapiens-blender/__init__.py:339-340 | one naming call raises its own base's counter by one and leaves every other counter alone |
| ExportEmpties.EmptyIndicesAbove | sapiens-blender/__init__.py:339-340 | every counter handed out is above its base's starting count |
| ExportEmpties.EmptyIndicesCount | sapiens-blender/__init__.py:339-361 | the counter handed to a mesh is its base's starting count plus one more than the number of earlier meshes with the same base |
| ExportEmpties.EmptyIndicesIncrease | sapiens-blender/__init__.py:339-361 | for two meshes of one base, the later one is handed the larger counter |
| ExportEmpties.EmptyIndicesDistinct | sapiens-blender/__init__.py:339-361 | within one base the counters handed out strictly increase |
| ExportEmpties.EmptyNamesDistinct | sapiens-blender/__init__.py:332-361 | the names generated in one run are pairwise distinct |
| ExportEmpties.Renamed | sapiens-blender/__init__.py:357-359 | a mesh gets `<name>_original`, a name different from its own, and restoring its recorded name gives the object back; other objects are untouched |
| ExportEmpties.RenameMeshes | sapiens-blender/__init__.py:355-359 | kinds are kept, and an object changes exactly when it is a mesh |
| ExportEmpties.RestoreOne | sapiens-blender/__init__.py:402-403 | the replaced object gets its recorded name and keeps its kind; no other object changes |
| ExportEmpties.RestoreNames | sapiens-blender/__init__.py:396-403 | the restore loop keeps the number of objects and every object's kind |
| ExportEmpties.RestoreNamesEffect | sapiens-blender/__init__.py:396-403 | the restore loop gives each replaced object its recorded name, keeps its kind, and changes no other object |
| ExportEmpties.RestoreUndoesRename | sapiens-blender/__init__.py:355-403 | renaming the meshes and then restoring gives back the original scene, when no rename is refused or altered by Blender |
| ExportEmpties.NewEmpties | sapiens-blender/__init__.py:353-373 | one plain-axes empty per mesh of a fixed snapshot of the scene, named by its mesh's base and the running counter of that base, with pairwise distinct names |
| ExportEmpties.EmptyNameClashesWithMesh | sapiens-blender/__init__.py:361-403 | with meshes `b_1` and `a_b` the empty made for `a_b` is named `b_1`, the original name of the first mesh |
| ExportEmpties.Selection | sapiens-blender/__init__.py:379-381 | an object is selected if and only if it is in the scene and is an empty or a camera |
| ExportEmpties.Execute | sapiens-blender/__init__.py:344-406 | cancels exactly when the file is missing; otherwise, iterating a fixed snapshot of the scene, the exporter writes to the export path while every mesh is renamed once and the new empties are present; the scene is then restored |
| ExportEmpties.ExecuteAsWritten | sapiens-blender/__init__.py:345-346 | raises TypeError exactly when the file is missing, so it never cancels; otherwise it agrees with the corrected operator |
| ExportEmpties.MissingFileRaises | sapiens-blender/__init__.py:345-347 | for a missing file the code as written raises TypeError, while the corrected operator cancels |
| ExportEmpties.MeshesRenamedDuringExport | sapiens-blender/__init__.py:355-359 | during the export every mesh of the snapshot carries its `_original` name |
| ExportEmpties.NewEmptiesSelected | sapiens-blender/__init__.py:378-381 | the exporter is handed every new empty |
| ExportEmpties.NoMeshSelected | sapiens-blender/__init__.py:378-381 | the exporter is handed no mesh |
| EmptyTypes.EmptyType | sapiens-blender/__init__.py:469-478 | on the lower-cased name: box or cube gives CUBE; else sphere, seat or radius gives SPHERE; else store gives PLAIN_AXES; else the current type |
| EmptyTypes.EmptyTypeIgnoresCase | sapiens-blender/__init__.py:470 | a name and its lower-cased form get the same type |
| EmptyTypes.EmptyTypeStable | sapiens-blender/__init__.py:469-478 | classifying an already classified empty again changes nothing |
| EmptyTypes.Apply | sapiens-blender/__init__.py:484-485 | only empties are reclassified; names and non-empties are untouched |
| EmptyTypes.SetEmptyTypes | sapiens-blender/__init__.py:482-487 | every empty gets the type its name selects; every other object and every name is unchanged |
| EmptyTypes.SetEmptyTypesIdempotent | sapiens-blender/__init__.py:482-487 | running Apply Type twice equals running it once |
| DuplicateMaterials.DuplicateBase | sapiens-blender/__init__.py:297-303 | a match means the name is the base, `.`, three digits and at most one final newline, with no newline in the base |
| DuplicateMaterials.DuplicateBaseMatches | sapiens-blender/__init__.py:297-303 | conversely every such name matches, with that base as group 1 |
| DuplicateMaterials.Reassign | sapiens-blender/__init__.py:307-316 | a mesh slot ends up holding the base exactly when it held the duplicate or the base; no slot holds a distinct duplicate afterwards; slots of other objects that held it become empty |
| DuplicateMaterials.Step | sapiens-blender/__init__.py:300-322 | one turn of the loop brings in no new material, keeps the slots and their empty ones, and keeps one name per material |
| DuplicateMaterials.Resolve | sapiens-blender/__init__.py:300-322 | the loop brings in no new material, keeps the number of slots, and keeps one name per material |
| DuplicateMaterials.MergeEffect | sapiens-blender/__init__.py:304-316 | with the base present, the duplicate is deleted; exactly the mesh slots that held it or the base now hold the base; no other slot changes |
| DuplicateMaterials.RenameEffect | sapiens-blender/__init__.py:317-320 | with the base absent, the duplicate takes the base's name; other materials and slots are unchanged; the log records the base as renamed |
| DuplicateMaterials.NonDuplicateUntouched | sapiens-blender/__init__.py:301-302 | a name without the suffix changes nothing |
| DuplicateMaterials.StepKeepsSlotsLive | sapiens-blender/__init__.py:300-322 | one step never leaves a slot pointing at a deleted material |
| DuplicateMaterials.ResolveKeepsSlotsLive | sapiens-blender/__init__.py:300-322 | the whole loop never leaves a slot pointing at a deleted material |
| DuplicateMaterials.ResolveKeepsPlainNames | sapiens-blender/__init__.py:300-322 | materials whose names lack the suffix survive under their names |
| DuplicateMaterials.ResolveNeverGrows | sapiens-blender/__init__.py:300-322 | the loop never adds materials and never adds or removes slots |
| DuplicateMaterials.NoNameConflict | sapiens-blender/__init__.py:304-322 | the "Name conflict" entry is never recorded |
| DuplicateMaterials.StepFrame | sapiens-blender/__init__.py:300-322 | a turn for one name leaves every other material's name and id alone, and the slots holding it |
| DuplicateMaterials.ResolveKeepsPlainUsers | sapiens-blender/__init__.py:300-322 | slots that are empty or hold a material without the suffix keep their contents through the loop |
| DuplicateMaterials.ResolveMerges | sapiens-blender/__init__.py:304-316 | a duplicate of an existing suffix-free material is gone after the loop; each slot that held it holds the base if it is a mesh slot, and nothing otherwise |
| DuplicateMaterials.ResolveMergesAll | sapiens-blender/__init__.py:300-322 | the same for every such duplicate of a snapshot without repeated names |
| DuplicateMaterials.ResolveKeepsUnlisted | sapiens-blender/__init__.py:300-322 | a material whose name no remaining turn handles keeps its name and id to the end of the loop |
| DuplicateMaterials.ResolveRenames | sapiens-blender/__init__.py:316-318 | the first duplicate of a missing base takes the base's name, and the base still holds that material when the loop ends |
| DuplicateMaterials.ResolveRenamesAll | sapiens-blender/__init__.py:300-322 | the same for every such duplicate of a snapshot without repeated names |
| DuplicateMaterials.RemoveDuplicates | sapiens-blender/__init__.py:296-325 | over a snapshot of all material names: slots stay live, the library does not grow, plain names survive, no conflict is logged, every duplicate of an existing suffix-free material is merged into it, and the first duplicate of each missing base ends up holding that base's name |
| DuplicateMaterials.ChainedSuffixesResolveOneLevel | sapiens-blender/__init__.py:300-322 | `a.001` and `a.001.001` without `a` end up named `a` and `a.001`: one suffix is removed per run |
| MaterialFile.Subscript | sapiens-blender/__init__.py:145-146 | `value[key]` succeeds exactly on a dict holding the key; otherwise KeyError on a dict and TypeError on anything else |
| MaterialFile.Key | sapiens-blender/__init__.py:146 | a value is hashable exactly when its key class is; a bool falls into the class of its number; any other value is its own class |
| MaterialFile.KeyIsPythonEquality | sapiens-blender/__init__.py:146 | two hashable values have the same key class exactly when Python finds them equal |
| MaterialFile.Upsert | sapiens-blender/__init__.py:146 | an existing key keeps its place; a new key and its value go last |
| MaterialFile.UpsertLookup | sapiens-blender/__init__.py:146 | after the assignment the key maps to the new value and every other key keeps its value |
| MaterialFile.AddEntry | sapiens-blender/__init__.py:145-146 | a record is indexed exactly when it is a dict with a hashable identifier, and then under that identifier's key class |
| MaterialFile.BuildFrom | sapiens-blender/__init__.py:144-147 | the index never has more keys than there were entries |
| MaterialFile.BuildIndex | sapiens-blender/__init__.py:140-147 | TypeError when the document is not an object; KeyError when it lacks `hammerstone:global_definitions`; success needs `hs_materials` |
| MaterialFile.BuildFromSucceeds | sapiens-blender/__init__.py:144-147 | indexing succeeds if and only if every entry is a dict with a hashable identifier |
| MaterialFile.BuildFromIndexesAll | sapiens-blender/__init__.py:144-147 | every entry's identifier is a key of the index |
| MaterialFile.BuildFromKeysAreIdentifiers | sapiens-blender/__init__.py:144-147 | every key of the index is some entry's identifier |
| MaterialFile.BuildFromLastWins | sapiens-blender/__init__.py:144-147 | an identifier maps to the last entry carrying it |
| MaterialFile.BuildFromKeyed | sapiens-blender/__init__.py:144-147 | every indexed record is a dict whose identifier is its key |
| MaterialFile.EqualKeysShareAnEntry | sapiens-blender/__init__.py:144-147 | records with identifiers `true` and `1.0` share one entry, which holds the later record |
| MaterialFile.GetMaterials | sapiens-blender/__init__.py:188-192 | one record per key, in key order, each the value stored under its key |
| MaterialFile.DefaultData | sapiens-blender/__init__.py:150-159 | the default data indexes to the empty index, and it is what saving the empty index writes |
| MaterialFile.Save | sapiens-blender/__init__.py:179-186 | reindexing the saved document reads back the index's records, in key order |
| MaterialFile.SaveThenBuild | sapiens-blender/__init__.py:140-192 | saving and reindexing an index whose records carry their keys as identifiers gives back the same index, order included |
| MaterialFile.Round3 | sapiens-blender/__init__.py:218-220 | `round(x, 3)` is a multiple of 0.001 within 0.0005 of `x`, and leaves such multiples alone |
| MaterialFile.Round3Idempotent | sapiens-blender/__init__.py:218-220 | rounding twice is rounding once |
| MaterialFile.Round3Nearest | sapiens-blender/__init__.py:218-220 | no multiple of 0.001 lies nearer to `x` than its rounding |
| MaterialFile.Round3Ties | sapiens-blender/__init__.py:218-220 | halfway values round to the even multiple, as for 0.0625 and 0.1875 |
| MaterialFile.MaterialToJson | sapiens-blender/__init__.py:198-223 | no Principled BSDF gives None; otherwise an indexable record whose identifier is the material's name |
| MaterialFile.WriteMaterialAsWritten | sapiens-blender/__init__.py:194-195 | the material's record, None included, is stored under its name; every other key is unchanged |
| MaterialFile.WriteMaterial | sapiens-blender/__init__.py:194-195 | like the code but a material without a record is skipped; the index stays keyed by identifier |
| MaterialFile.WriteAllAsWritten | sapiens-blender/__init__.py:284-285 | keys already present keep their places, each material adds at most one key, every material's name is a key afterwards, and with a BSDF on every material it is the corrected loop |
| MaterialFile.WriteAllAsWrittenKeepsOthers | sapiens-blender/__init__.py:284-285 | as written, a key that no material is named after keeps its value |
| MaterialFile.WriteAllAsWrittenLastWins | sapiens-blender/__init__.py:194-195 | as written, the last material of a name decides the value under it: its record, or `null` without a BSDF |
| MaterialFile.WriteAll | sapiens-blender/__init__.py:284-285 | writing all materials keeps the index keyed by identifier |
| MaterialFile.WriteAllKeepsOthers | sapiens-blender/__init__.py:284-285 | a key that no written material is named after keeps its value |
| MaterialFile.WriteAllLastWins | sapiens-blender/__init__.py:284-285 | the last written material of a name is the record under that name |
| MaterialFile.Open | sapiens-blender/__init__.py:161-177 | a missing file opens as the empty index; an existing one is indexed as read |
| MaterialFile.ExportMaterialsAsWritten | sapiens-blender/__init__.py:281-287 | the export succeeds exactly when the registry opens, and when every material has a Principled BSDF it writes what the corrected export writes |
| MaterialFile.ExportMaterials | sapiens-blender/__init__.py:281-287 | the export succeeds exactly when the registry opens, and the file it saves opens again |
| MaterialFile.ExportThenReopen | sapiens-blender/__init__.py:281-287 | reopening the saved registry gives exactly the index the export wrote |
| MaterialFile.NullEntriesBreakReload | sapiens-blender/__init__.py:194-208 | as written, whenever the last material of some name has no Principled BSDF, the saved registry fails to reopen with TypeError |
| MaterialFile.BuildFromNullFails | sapiens-blender/__init__.py:144-147 | indexing records and nulls raises TypeError once a null is present |
| MaterialFile.NullEntryBreaksReload | sapiens-blender/__init__.py:194-208 | as written, one material without a Principled BSDF yields a saved registry that fails with TypeError; once corrected it reopens empty |
| MaterialFile.GetOr | sapiens-blender/__init__.py:227-230 | `data.get(key, default)` gives the value or the default on a dict, and AttributeError otherwise |
| MaterialFile.AsFloat | sapiens-blender/__init__.py:254-255 | a float input accepts a number, or a bool as 1.0 or 0.0, and refuses anything else |
| MaterialFile.AsColor | sapiens-blender/__init__.py:253 | the colour input accepts exactly a list of three values the float inputs accept, and adds alpha 1.0 |
| MaterialFile.JsonToMaterial | sapiens-blender/__init__.py:226-260 | AttributeError on a non-dict; otherwise, leaving aside the node tree of an existing material, it succeeds exactly when the identifier is a string, the colour is three numbers, and metallic and roughness are numbers; alpha is 1.0 |
| MaterialFile.JsonToMaterialDefaults | sapiens-blender/__init__.py:227-230 | an empty record reads as `Material`, white, metallic 0.0, roughness 0.5 |
| MaterialFile.NumericIdentifierFailsImport | sapiens-blender/__init__.py:226-233 | a record with a number as identifier is indexed but cannot be imported |
| MaterialFile.ExportThenImport | sapiens-blender/__init__.py:198-260 | importing an exported record gives the name, the rounded colour with alpha 1.0, and the rounded metallic and roughness |
| MaterialFile.ExportImportExport | sapiens-blender/__init__.py:198-260 | exporting an imported export writes the same record again |
| MaterialFile.ImportAll | sapiens-blender/__init__.py:271-272 | succeeds exactly when every record imports, giving one result per record in order |
| MaterialFile.ImportMaterials | sapiens-blender/__init__.py:268-274 | fails as opening fails; otherwise succeeds exactly when every indexed record imports, reading them in key order |
| MaterialFile.UpsertAllImport | sapiens-blender/__init__.py:146 | storing an importable record keeps every record importable |
| MaterialFile.WriteAllImports | sapiens-blender/__init__.py:284-285 | writing materials keeps every record importable |
| MaterialFile.ExportThenImportAll | sapiens-blender/__init__.py:268-287 | after an export into a registry whose records all import, Import Materials succeeds |
| MaterialFile.DefaultPath | sapiens-blender/__init__.py:170-173 | `get_default_path` names the same file as `get_material_file_path` |

## Left out

- Everything the host application does is left out: the active object, selection flags other than the set handed to the exporter, object creation, linking to collections, parenting, visibility, display size, and transforms (`matrix_world`, location, rotation, scale). The scene is a sequence of named, typed objects.
- The glTF exporter calls are foreign code. The model records what the exporter would be handed: the path and the selected objects.
- Blender's own naming rules are host behaviour: a clashing name gets a `.001` suffix, names are cut at 63 bytes, and `bpy.data` iterates sorted by name. Renames in the model set exactly the requested name, and iteration follows the given sequence.
- File I/O is left out: `Path.exists`, `mkdir`, `open`, `json.load`/`json.dump`, and malformed JSON text. File existence is a boolean and the registry is its parsed contents.
- Two paths are left out: Windows drive anchors, and the unsaved file whose path is `""`, which pathlib reads as `.` and which exists. The model takes the existence flag as given.
- `get_extension_version`, the "Add Buildables", "Add Camera", "Apply Scale" and plain "Export" operators, the UI panel, and `register`/`unregister` are outside the modelled rules.
- MaterialFile.MaterialToJson: shader inputs and `round(…, 3)` work on exact reals here, not on 32-bit and 64-bit floats. Blender's clamping of input values to their ranges is host behaviour. Only the first-three-channels slice of the colour is modelled.
- MaterialFile.JsonToMaterial: the exceptions Blender's Python API raises for a value of the wrong type or length are one error, `ApiError`. That error also stands for Python's own TypeError when the colour cannot be unpacked by `(*color, 1.0)`. Creating the material and building the node graph use the shader API and are left out. The parameters it would set are the result. So an existing material of the same name without a node tree, such as a grease-pencil material, fails with AttributeError at `material.node_tree.nodes`, and the model does not show that failure.
- ExportEmpties.RestoreUndoesRename: holds only when every rename sets exactly the requested name. Blender adds a `.001` suffix when the name is taken, and the empties are still in the scene while the meshes get their names back. `ExportEmpties.EmptyNameClashesWithMesh` shows an empty holding a mesh's original name, so in such scenes that mesh is not restored to its own name.
- ExportEmpties.Execute: the scene afterwards equals the scene before only under the same exact-rename assumption. An empty whose generated name is already taken by another object is also renamed by Blender, and the model does not follow that. The model also walks a fixed snapshot of the objects, visiting each mesh once. The code walks the live `bpy.data.objects`, which is sorted by name, while it renames meshes and adds empties to it. A renamed mesh such as `Cube_original` can sort after its neighbour `Cube.001` and be met again, or a mesh can be skipped. What Blender's iterator does then is not modelled.
- ExportEmpties.NewEmpties: one empty per mesh of the fixed snapshot; a mesh met twice or skipped by the live iteration is not modelled, for the reason under `ExportEmpties.Execute`.
- ExportEmpties.MeshesRenamedDuringExport: every mesh carries exactly one `_original` suffix only under the snapshot iteration described under `ExportEmpties.Execute`.
- ExportParts.PartFilesDistinct: model names holding `/` are not covered, because `get_model_name` keeps `/` and pathlib then reads the name as a sub-path. Two such names can name the same file, or a file outside the export folder.
- `str.lower` is modelled for ASCII letters only, and `\d` for the ASCII digits `0`–`9`.
- DuplicateMaterials.RemoveDuplicates: materials are identified by name over a snapshot of the names. This matches the code's by-object iteration because a material is renamed or deleted only while it is being processed. The count in the closing report is the size of the log. The merge guarantee covers duplicates whose base has no suffix of its own. The rename guarantee covers the first duplicate of each missing base; a later duplicate of that base is then merged into it. A chain such as `a.001.001` loses one suffix per run, as `DuplicateMaterials.ChainedSuffixesResolveOneLevel` shows.

## Findings

| source | as written | input that shows it | evidently intended | confidence | as-written member | corrected member |
|---|---|---|---|---|---|---|
| sapiens-blender/__init__.py:19-20 | `get_export_folder` returns `False` for a missing file, and `get_export_path` then evaluates `False / stem`, which raises TypeError | any `.blend` path that does not exist on disk (`Paths.ExportPathMissingFile`) | return a falsy value so that the callers' `if not export_path` cancels | not executed | Paths.ExportPathAsWritten | Paths.ExportPath |
| sapiens-blender/__init__.py:63-104 | the closing report reads `export_path`, which is bound only inside the loop body | a saved scene holding only a camera (`ExportParts.NoMeshesFails`) | finish with an empty report when no mesh is exported | not executed | ExportParts.ExecuteAsWritten | ExportParts.Execute |
| sapiens-blender/__init__.py:194-208 | `write_material` stores the `None` that `material_to_json` returns for a material without a Principled BSDF; `save` writes it as `null`, and the next `build_index` evaluates `None["identifier"]`, which raises TypeError | exporting one material without a Principled BSDF into a fresh registry (`MaterialFile.NullEntryBreaksReload`; every such export in `MaterialFile.NullEntriesBreakReload`) | skip materials that have no record, so that the registry always opens again | not executed | MaterialFile.ExportMaterialsAsWritten, MaterialFile.NullEntriesBreakReload | MaterialFile.ExportMaterials |
| sapiens-blender/__init__.py:345-346 | `execute` of Export Empties calls `get_export_path`, which raises TypeError for a missing file before `if not export_path` can cancel | any scene whose `.blend` file does not exist on disk (`ExportEmpties.MissingFileRaises`) | cancel the operator when the file is missing | not executed | ExportEmpties.ExecuteAsWritten | ExportEmpties.Execute |

=== FILE: duplicate_materials.dfy ===
/**
 * The "Remove Duplicates" operator: a material named like `bone.001` is
 * folded into `bone` when `bone` exists (mesh slots are pointed at `bone`
 * and the duplicate is deleted), and otherwise is renamed to `bone`.
 */
module DuplicateMaterials {
  import opened Wrappers
  import opened Text

  type MaterialId = nat

  /** One material slot of some object: whether the object is a mesh, and what the slot holds. */
  datatype Slot = Slot(onMesh: bool, material: Option<MaterialId>)

  /** `bpy.data.materials` by name, and every material slot in the file. */
  datatype Library = Library(materials: map<string, MaterialId>, slots: seq<Slot>)

  /** What `renamed_materials` records. */
  datatype Action = Merged(base: string) | Renamed | NameConflict

  /**
   * `re.compile(r"(.*)\.(\d{3})$").match(name)`: group 1 when the name ends
   * in '.' and three digits, optionally followed by one final newline (where
   * `$` also matches); `.` never matches a newline, so group 1 holds none.
   */
  function DuplicateBase(name: string): (r: Option<string>)
    ensures r.Some? ==> var b := r.value;
      && '\n' !in b
      && (|name| == |b| + 4 || (|name| == |b| + 5 && name[|b| + 4] == '\n'))
      && name[..|b|] == b && name[|b|] == '.'
      && IsDigit(name[|b| + 1]) && IsDigit(name[|b| + 2]) && IsDigit(name[|b| + 3])
  {
    var t := if |name| > 0 && name[|name| - 1] == '\n' then name[..|name| - 1] else name;
    if |t| >= 4 && t[|t| - 4] == '.' && IsDigit(t[|t| - 3]) && IsDigit(t[|t| - 2]) && IsDigit(t[|t| - 1])
       && '\n' !in t[..|t| - 4]
    then Some(t[..|t| - 4])
    else None
  }

  /** Every `base.ddd` name, with or without one trailing newline, matches with group `base`. */
  lemma DuplicateBaseMatches(base: string, digits: string, newline: bool)
    requires '\n' !in base
    requires |digits| == 3 && IsDigit(digits[0]) && IsDigit(digits[1]) && IsDigit(digits[2])
    ensures DuplicateBase(base + "." + digits + (if newline then "\n" else "")) == Some(base)
  {
    var t := base + "." + digits;
    var name := t + (if newline then "\n" else "");
    assert t[|t| - 4] == '.' && t[|t| - 3] == digits[0] && t[|t| - 2] == digits[1] && t[|t| - 1] == digits[2];
    assert t[..|t| - 4] == base;
    if newline {
      assert name[..|name| - 1] == t;
    } else {
      assert name == t;
    }
  }

  /** Mesh slots holding `dup` now hold `target`; other users of `dup` lose it when it is deleted. */
  function Reassign(slots: seq<Slot>, dup: MaterialId, target: MaterialId): (r: seq<Slot>)
    ensures |r| == |slots|
    ensures forall i :: 0 <= i < |slots| ==> r[i].onMesh == slots[i].onMesh
    ensures forall i :: 0 <= i < |slots| && slots[i].onMesh ==>
      (r[i].material == Some(target) <==> slots[i].material == Some(dup) || slots[i].material == Some(target))
    ensures dup != target ==> forall i :: 0 <= i < |r| ==> r[i].material != Some(dup)
    ensures forall i :: 0 <= i < |slots| && slots[i].material != Some(dup) ==> r[i] == slots[i]
    ensures forall i :: 0 <= i < |slots| && slots[i].material == Some(dup) ==>
      r[i].material == if slots[i].onMesh then Some(target) else None
  {
    seq(|slots|, i requires 0 <= i < |slots| =>
      if slots[i].material != Some(dup) then slots[i]
      else if slots[i].onMesh then Slot(true, Some(target))
      else Slot(false, None))
  }

  /** No two names share a material: each material has one name. */
  predicate Injective(m: map<string, MaterialId>)
  {
    forall a, b :: a in m && b in m && m[a] == m[b] ==> a == b
  }

  /** One iteration of the loop, for the material currently named `name`. */
  function Step(lib: Library, log: map<string, Action>, name: string): (r: (Library, map<string, Action>))
    ensures r.0.materials.Values <= lib.materials.Values
    ensures |r.0.slots| == |lib.slots|
    ensures forall i :: 0 <= i < |lib.slots| && lib.slots[i].material.None? ==> r.0.slots[i] == lib.slots[i]
    ensures Injective(lib.materials) ==> Injective(r.0.materials)
  {
    match DuplicateBase(name)
    case None => (lib, log)
    case Some(base) =>
      if name !in lib.materials then (lib, log)
      else
        var mat := lib.materials[name];
        if base in lib.materials then
          var target := lib.materials[base];
          (Library(lib.materials - {name}, Reassign(lib.slots, mat, target)), log[name := Merged(base)])
        else if base !in lib.materials then
          var m := (lib.materials - {name})[base := mat];
          assert m.Values <= lib.materials.Values by {
            forall v | v in m.Values
              ensures v in lib.materials.Values
            {
              var a :| a in m && m[a] == v;
              if a != base {
                assert lib.materials[a] == v;
              }
            }
          }
          (Library(m, lib.slots), log[base := Renamed])
        else (lib, log[name := NameConflict])
  }

  /** The loop over the snapshot `list(bpy.data.materials)`, by name. */
  function Resolve(lib: Library, log: map<string, Action>, names: seq<string>): (r: (Library, map<string, Action>))
    ensures r.0.materials.Values <= lib.materials.Values
    ensures |r.0.slots| == |lib.slots|
    ensures Injective(lib.materials) ==> Injective(r.0.materials)
    decreases |names|
  {
    if |names| == 0 then (lib, log)
    else
      var next := Step(lib, log, names[0]);
      Resolve(next.0, next.1, names[1..])
  }

  /** A duplicate whose base exists is deleted, and exactly the mesh slots that held it now hold the base. */
  lemma MergeEffect(lib: Library, log: map<string, Action>, name: string)
    requires DuplicateBase(name).Some? && name in lib.materials && DuplicateBase(name).value in lib.materials
    ensures var base := DuplicateBase(name).value;
      var dup := lib.materials[name];
      var target := lib.materials[base];
      var after := Step(lib, log, name).0;
      && after.materials == lib.materials - {name}
      && |after.slots| == |lib.slots|
      && (forall i :: 0 <= i < |lib.slots| && lib.slots[i].onMesh ==>
            (after.slots[i].material == Some(target) <==>
             lib.slots[i].material == Some(dup) || lib.slots[i].material == Some(target)))
      && (forall i :: 0 <= i < |lib.slots| && lib.slots[i].material != Some(dup) ==> after.slots[i] == lib.slots[i])
  {
  }

  /** A duplicate whose base is missing takes the base's name; slots are untouched. */
  lemma RenameEffect(lib: Library, log: map<string, Action>, name: string)
    requires DuplicateBase(name).Some? && name in lib.materials && DuplicateBase(name).value !in lib.materials
    ensures var base := DuplicateBase(name).value;
      var after := Step(lib, log, name);
      && after.0.materials.Keys == lib.materials.Keys - {name} + {base}
      && after.0.materials[base] == lib.materials[name]
      && (forall k :: k in lib.materials && k != name ==> after.0.materials[k] == lib.materials[k])
      && after.0.slots == lib.slots
      && after.1 == log[base := Renamed]
  {
  }

  /** A name without the `.ddd` suffix is left alone. */
  lemma NonDuplicateUntouched(lib: Library, log: map<string, Action>, name: string)
    requires DuplicateBase(name).None?
    ensures Step(lib, log, name) == (lib, log)
  {
  }

  /** Every slot holds a material that still exists. */
  predicate SlotsLive(lib: Library)
  {
    forall i :: 0 <= i < |lib.slots| && lib.slots[i].material.Some? ==>
      lib.slots[i].material.value in lib.materials.Values
  }

  lemma StepKeepsSlotsLive(lib: Library, log: map<string, Action>, name: string)
    requires SlotsLive(lib)
    ensures SlotsLive(Step(lib, log, name).0)
  {
    match DuplicateBase(name)
    case None =>
    case Some(base) =>
      if name in lib.materials {
        var mat := lib.materials[name];
        var after := Step(lib, log, name).0;
        if base in lib.materials {
          var target := lib.materials[base];
          assert target in after.materials.Values by {
            assert after.materials[base] == target;
          }
          forall i | 0 <= i < |after.slots| && after.slots[i].material.Some?
            ensures after.slots[i].material.value in after.materials.Values
          {
            var m := after.slots[i].material.value;
            if m != target {
              assert lib.slots[i].material == Some(m) && m != mat;
              var k :| k in lib.materials && lib.materials[k] == m;
              assert k != name && after.materials[k] == m;
            }
          }
        } else {
          assert after.materials[base] == mat;
          forall i | 0 <= i < |after.slots| && after.slots[i].material.Some?
            ensures after.slots[i].material.value in after.materials.Values
          {
            var m := after.slots[i].material.value;
            var k :| k in lib.materials && lib.materials[k] == m;
            if k != name {
              assert after.materials[k] == m;
            }
          }
        }
      }
  }

  /** The whole loop never leaves a slot pointing at a deleted material. */
  lemma {:induction false} ResolveKeepsSlotsLive(lib: Library, log: map<string, Action>, names: seq<string>)
    ensures SlotsLive(lib) ==> SlotsLive(Resolve(lib, log, names).0)
    decreases |names|
  {
    if |names| > 0 && SlotsLive(lib) {
      var next := Step(lib, log, names[0]);
      StepKeepsSlotsLive(lib, log, names[0]);
      ResolveKeepsSlotsLive(next.0, next.1, names[1..]);
    }
  }

  /** Materials whose names lack the suffix survive the loop under the same name. */
  lemma {:induction false} ResolveKeepsPlainNames(lib: Library, log: map<string, Action>, names: seq<string>)
    ensures var after := Resolve(lib, log, names).0;
      forall k :: k in lib.materials && DuplicateBase(k).None? ==>
        k in after.materials && after.materials[k] == lib.materials[k]
    decreases |names|
  {
    if |names| > 0 {
      var next := Step(lib, log, names[0]);
      assert forall k :: k in lib.materials && DuplicateBase(k).None? ==>
        k in next.0.materials && next.0.materials[k] == lib.materials[k];
      ResolveKeepsPlainNames(next.0, next.1, names[1..]);
    }
  }

  /** The loop never deletes more than one material per name and never adds one. */
  lemma {:induction false} ResolveNeverGrows(lib: Library, log: map<string, Action>, names: seq<string>)
    ensures |Resolve(lib, log, names).0.materials| <= |lib.materials|
    ensures |Resolve(lib, log, names).0.slots| == |lib.slots|
    decreases |names|
  {
    if |names| > 0 {
      var next := Step(lib, log, names[0]);
      var name := names[0];
      if DuplicateBase(name).Some? && name in lib.materials {
        var base := DuplicateBase(name).value;
        assert |lib.materials - {name}| == |lib.materials| - 1;
        if base !in lib.materials {
          assert base !in lib.materials - {name};
        }
      }
      ResolveNeverGrows(next.0, next.1, names[1..]);
    }
  }

  predicate NoConflict(log: map<string, Action>)
  {
    forall k :: k in log ==> log[k] != NameConflict
  }

  /** The "Name conflict" entry is never recorded: that branch cannot be reached. */
  lemma {:induction false} NoNameConflict(lib: Library, log: map<string, Action>, names: seq<string>)
    requires NoConflict(log)
    ensures NoConflict(Resolve(lib, log, names).1)
    decreases |names|
  {
    if |names| > 0 {
      var next := Step(lib, log, names[0]);
      assert NoConflict(next.1);
      NoNameConflict(next.0, next.1, names[1..]);
    }
  }

  predicate Distinct(names: seq<string>)
  {
    forall i, j :: 0 <= i < j < |names| ==> names[i] != names[j]
  }

  /** `name` is a duplicate of a suffix-free material that exists: the merge case. */
  predicate MergesInto(lib: Library, name: string)
  {
    && DuplicateBase(name).Some?
    && name in lib.materials
    && DuplicateBase(name).value in lib.materials
    && DuplicateBase(DuplicateBase(name).value).None?
  }

  /** A step for one name leaves another material's name, id and users alone. */
  lemma StepFrame(lib: Library, log: map<string, Action>, x: string, y: string)
    requires Injective(lib.materials) && y in lib.materials && x != y
    ensures var after := Step(lib, log, x).0;
      && y in after.materials && after.materials[y] == lib.materials[y]
      && forall i :: 0 <= i < |lib.slots| && lib.slots[i].material == Some(lib.materials[y]) ==>
           after.slots[i] == lib.slots[i]
  {
    if DuplicateBase(x).Some? && x in lib.materials {
      assert lib.materials[x] != lib.materials[y];
    }
  }

  /** Slots that are empty or hold a suffix-free material keep their contents through the loop. */
  lemma {:induction false} ResolveKeepsPlainUsers(lib: Library, log: map<string, Action>, names: seq<string>, p: string)
    requires Injective(lib.materials) && p in lib.materials && DuplicateBase(p).None?
    ensures var after := Resolve(lib, log, names).0;
      forall i ::
        (0 <= i < |lib.slots| && (lib.slots[i].material.None? || lib.slots[i].material == Some(lib.materials[p])))
        ==> after.slots[i] == lib.slots[i]
    decreases |names|
  {
    if |names| > 0 {
      var x := names[0];
      var next := Step(lib, log, x);
      if x != p {
        StepFrame(lib, log, x, p);
      }
      ResolveKeepsPlainUsers(next.0, next.1, names[1..], p);
    }
  }

  /**
   * A duplicate of an existing suffix-free material is gone after the loop,
   * and each slot that held it holds the base material if it belongs to a
   * mesh and nothing otherwise.
   */
  lemma {:induction false} ResolveMerges(lib: Library, log: map<string, Action>, names: seq<string>, k: nat)
    requires Injective(lib.materials) && Distinct(names)
    requires k < |names| && MergesInto(lib, names[k])
    ensures var dup := lib.materials[names[k]];
      var target := lib.materials[DuplicateBase(names[k]).value];
      var after := Resolve(lib, log, names).0;
      && dup !in after.materials.Values
      && forall i :: 0 <= i < |lib.slots| && lib.slots[i].material == Some(dup) ==>
           after.slots[i].material == if lib.slots[i].onMesh then Some(target) else None
    decreases |names|
  {
    var x := names[0];
    var next := Step(lib, log, x);
    var n := names[k];
    var base := DuplicateBase(n).value;
    var dup := lib.materials[n];
    assert Resolve(lib, log, names) == Resolve(next.0, next.1, names[1..]);
    if k == 0 {
      assert next.0.materials == lib.materials - {n};
      assert dup !in next.0.materials.Values;
      assert base != n;
      assert next.0.materials[base] == lib.materials[base];
      ResolveKeepsPlainUsers(next.0, next.1, names[1..], base);
    } else {
      assert x != n;
      StepFrame(lib, log, x, n);
      if x != base {
        StepFrame(lib, log, x, base);
      }
      assert names[1..][k - 1] == n;
      ResolveMerges(next.0, next.1, names[1..], k - 1);
    }
  }

  /** A material whose name is in no remaining turn of the loop keeps its name and id. */
  lemma {:induction false} ResolveKeepsUnlisted(lib: Library, log: map<string, Action>, names: seq<string>, y: string)
    requires Injective(lib.materials) && y in lib.materials && y !in names
    ensures var after := Resolve(lib, log, names).0;
      y in after.materials && after.materials[y] == lib.materials[y]
    decreases |names|
  {
    if |names| > 0 {
      var next := Step(lib, log, names[0]);
      StepFrame(lib, log, names[0], y);
      assert y !in names[1..];
      ResolveKeepsUnlisted(next.0, next.1, names[1..], y);
    }
  }

  /** `names[k]` is the first name of the loop whose base is a missing material: the rename case. */
  predicate FirstOfMissingBase(lib: Library, names: seq<string>, k: nat)
    requires k < |names|
  {
    && DuplicateBase(names[k]).Some?
    && names[k] in lib.materials
    && DuplicateBase(names[k]).value !in lib.materials
    && forall j :: 0 <= j < k ==> DuplicateBase(names[j]) != DuplicateBase(names[k])
  }

  /**
   * The first duplicate of a missing base takes the base's name, and the
   * base keeps that material to the end of the loop.
   */
  lemma {:induction false} ResolveRenames(lib: Library, log: map<string, Action>, names: seq<string>, k: nat)
    requires Injective(lib.materials) && Distinct(names)
    requires k < |names| && FirstOfMissingBase(lib, names, k)
    requires DuplicateBase(names[k]).value !in names
    ensures var base := DuplicateBase(names[k]).value;
      var after := Resolve(lib, log, names).0;
      base in after.materials && after.materials[base] == lib.materials[names[k]]
    decreases |names|
  {
    var x := names[0];
    var next := Step(lib, log, x);
    var n := names[k];
    var base := DuplicateBase(n).value;
    assert Resolve(lib, log, names) == Resolve(next.0, next.1, names[1..]);
    assert base !in names[1..];
    if k == 0 {
      assert next.0.materials[base] == lib.materials[n];
      ResolveKeepsUnlisted(next.0, next.1, names[1..], base);
    } else {
      assert x != n;
      StepFrame(lib, log, x, n);
      assert DuplicateBase(x) != Some(base);
      assert base !in next.0.materials;
      assert names[1..][k - 1] == n;
      forall j | 0 <= j < k - 1
        ensures DuplicateBase(names[1..][j]) != DuplicateBase(n)
      {
        assert names[1..][j] == names[j + 1];
      }
      ResolveRenames(next.0, next.1, names[1..], k - 1);
    }
  }

  lemma ResolveRenamesAll(lib: Library, snapshot: seq<string>)
    requires forall n :: n in snapshot <==> n in lib.materials
    ensures Injective(lib.materials) && Distinct(snapshot) ==>
      forall k :: 0 <= k < |snapshot| && FirstOfMissingBase(lib, snapshot, k) ==>
        var base := DuplicateBase(snapshot[k]).value;
        var after := Resolve(lib, map[], snapshot).0;
        base in after.materials && after.materials[base] == lib.materials[snapshot[k]]
  {
    if Injective(lib.materials) && Distinct(snapshot) {
      forall k | 0 <= k < |snapshot| && FirstOfMissingBase(lib, snapshot, k) {
        ResolveRenames(lib, map[], snapshot, k);
      }
    }
  }

  /** `execute`: the loop over every material's name; `|r.1|` is the count in the closing report. */
  function RemoveDuplicates(lib: Library, snapshot: seq<string>): (r: (Library, map<string, Action>))
    requires forall n :: n in snapshot <==> n in lib.materials
    ensures SlotsLive(lib) ==> SlotsLive(r.0)
    ensures |r.0.materials| <= |lib.materials|
    ensures |r.0.slots| == |lib.slots|
    ensures forall k :: k in lib.materials && DuplicateBase(k).None? ==>
      k in r.0.materials && r.0.materials[k] == lib.materials[k]
    ensures NoConflict(r.1)
    ensures Injective(lib.materials) && Distinct(snapshot) ==>
      forall k :: 0 <= k < |snapshot| && MergesInto(lib, snapshot[k]) ==>
        var dup := lib.materials[snapshot[k]];
        var target := lib.materials[DuplicateBase(snapshot[k]).value];
        && dup !in r.0.materials.Values
        && forall i :: 0 <= i < |lib.slots| && lib.slots[i].material == Some(dup) ==>
             r.0.slots[i].material == if lib.slots[i].onMesh then Some(target) else None
    ensures Injective(lib.materials) && Distinct(snapshot) ==>
      forall k :: 0 <= k < |snapshot| && FirstOfMissingBase(lib, snapshot, k) ==>
        var base := DuplicateBase(snapshot[k]).value;
        base in r.0.materials && r.0.materials[base] == lib.materials[snapshot[k]]
  {
    ResolveRenamesAll(lib, snapshot);
    ResolveKeepsSlotsLive(lib, map[], snapshot);
    ResolveNeverGrows(lib, map[], snapshot);
    ResolveKeepsPlainNames(lib, map[], snapshot);
    NoNameConflict(lib, map[], snapshot);
    ResolveMergesAll(lib, snapshot);
    Resolve(lib, map[], snapshot)
  }

  lemma ResolveMergesAll(lib: Library, snapshot: seq<string>)
    ensures Injective(lib.materials) && Distinct(snapshot) ==>
      forall k :: 0 <= k < |snapshot| && MergesInto(lib, snapshot[k]) ==>
        var dup := lib.materials[snapshot[k]];
        var target := lib.materials[DuplicateBase(snapshot[k]).value];
        var after := Resolve(lib, map[], snapshot).0;
        && dup !in after.materials.Values
        && forall i :: 0 <= i < |lib.slots| && lib.slots[i].material == Some(dup) ==>
             after.slots[i].material == if lib.slots[i].onMesh then Some(target) else None
  {
    if Injective(lib.materials) && Distinct(snapshot) {
      forall k | 0 <= k < |snapshot| && MergesInto(lib, snapshot[k]) {
        ResolveMerges(lib, map[], snapshot, k);
      }
    }
  }

  /**
   * A chain of suffixes is resolved one level per run: `a.001` and
   * `a.001.001` without `a` end up named `a` and `a.001`.
   */
  lemma ChainedSuffixesResolveOneLevel()
    ensures var lib := Library(map["a.001" := 1, "a.001.001" := 2], []);
      Resolve(lib, map[], ["a.001", "a.001.001"]).0.materials == map["a" := 1, "a.001" := 2]
  {
    var lib := Library(map["a.001" := 1, "a.001.001" := 2], []);
    assert DuplicateBase("a.001") == Some("a") by {
      DuplicateBaseMatches("a", "001", false);
      assert "a" + "." + "001" + "" == "a.001";
    }
    assert DuplicateBase("a.001.001") == Some("a.001") by {
      DuplicateBaseMatches("a.001", "001", false);
      assert "a.001" + "." + "001" + "" == "a.001.001";
    }
    var first := Step(lib, map[], "a.001");
    assert first.0.materials == map["a" := 1, "a.001.001" := 2] by {
      assert "a" !in lib.materials;
    }
    var second := Step(first.0, first.1, "a.001.001");
    assert second.0.materials == map["a" := 1, "a.001" := 2] by {
      assert "a.001" !in first.0.materials;
    }
    assert Resolve(lib, map[], ["a.001", "a.001.001"]) == Resolve(first.0, first.1, ["a.001.001"]);
    assert Resolve(first.0, first.1, ["a.001.001"]) == Resolve(second.0, second.1, []);
  }
}

=== FILE: empty_types.dfy ===
/**
 * The "Apply Type" operator: each empty's display type follows keywords in
 * its name, compared case-insensitively, with the first matching rule
 * winning and the current type kept when no keyword occurs.
 */
module EmptyTypes {
  import opened Text
  import opened Scene

  /** The lower-cased name mentions a cube keyword. */
  ghost predicate CubeWord(low: string)
  {
    Occurs("box", low) || Occurs("cube", low)
  }

  ghost predicate SphereWord(low: string)
  {
    Occurs("sphere", low) || Occurs("seat", low) || Occurs("radius", low)
  }

  ghost predicate StoreWord(low: string)
  {
    Occurs("store", low)
  }

  /** `get_empty_type`: box/cube, then sphere/seat/radius, then store, else unchanged. */
  function EmptyType(name: string, current: EmptyDisplay): (r: EmptyDisplay)
    ensures var low := ToLower(name);
      && (CubeWord(low) ==> r == Cube)
      && (!CubeWord(low) && SphereWord(low) ==> r == Sphere)
      && (!CubeWord(low) && !SphereWord(low) && StoreWord(low) ==> r == PlainAxes)
      && (!CubeWord(low) && !SphereWord(low) && !StoreWord(low) ==> r == current)
  {
    var low := ToLower(name);
    ContainsMeansOccurs(low, "box");
    ContainsMeansOccurs(low, "cube");
    ContainsMeansOccurs(low, "sphere");
    ContainsMeansOccurs(low, "seat");
    ContainsMeansOccurs(low, "radius");
    ContainsMeansOccurs(low, "store");
    if Contains(low, "box") || Contains(low, "cube") then Cube
    else if Contains(low, "sphere") || Contains(low, "seat") || Contains(low, "radius") then Sphere
    else if Contains(low, "store") then PlainAxes
    else current
  }

  /** Only the letters' case is ignored: a name and its lower-cased form classify alike. */
  lemma EmptyTypeIgnoresCase(name: string, current: EmptyDisplay)
    ensures EmptyType(ToLower(name), current) == EmptyType(name, current)
  {
    ToLowerIdempotent(name);
  }

  /** A keyword decides the type whatever it was before; without one the type is kept. */
  lemma EmptyTypeStable(name: string, current: EmptyDisplay)
    ensures EmptyType(name, EmptyType(name, current)) == EmptyType(name, current)
  {
  }

  function Apply(obj: Object): (r: Object)
    ensures r.name == obj.name
    ensures obj.kind.Empty? <==> r.kind.Empty?
    ensures !obj.kind.Empty? ==> r == obj
  {
    if obj.kind.Empty? then Object(obj.name, Empty(EmptyType(obj.name, obj.kind.display))) else obj
  }

  /** `execute` of "Apply Type": every empty of the scene is reclassified; nothing else changes. */
  function SetEmptyTypes(objects: seq<Object>): (r: seq<Object>)
    ensures |r| == |objects|
    ensures forall i :: 0 <= i < |objects| ==> r[i].name == objects[i].name
    ensures forall i :: 0 <= i < |objects| && !objects[i].kind.Empty? ==> r[i] == objects[i]
    ensures forall i :: 0 <= i < |objects| && objects[i].kind.Empty? ==>
      r[i].kind == Empty(EmptyType(objects[i].name, objects[i].kind.display))
  {
    seq(|objects|, i requires 0 <= i < |objects| => Apply(objects[i]))
  }

  /** Running "Apply Type" a second time changes nothing. */
  lemma SetEmptyTypesIdempotent(objects: seq<Object>)
    ensures SetEmptyTypes(SetEmptyTypes(objects)) == SetEmptyTypes(objects)
  {
    var once := SetEmptyTypes(objects);
    forall i | 0 <= i < |objects| && objects[i].kind.Empty?
      ensures SetEmptyTypes(once)[i] == once[i]
    {
      EmptyTypeStable(objects[i].name, objects[i].kind.display);
    }
  }
}

=== FILE: export_empties.dfy ===
/**
 * The "Export Empties" operator: each mesh is renamed `<name>_original`, a
 * plain-axes empty named by `get_empty_name` takes its place, the empties
 * and cameras are exported, and then the empties are removed and every mesh
 * gets its own name back.
 */
module ExportEmpties {
  import opened Wrappers
  import opened Paths
  import opened Naming
  import opened Scene

  /** Positions of the mesh objects, in iteration order. */
  function MeshIndices(objects: seq<Object>): (r: seq<nat>)
    ensures forall k :: 0 <= k < |r| ==> r[k] < |objects| && objects[r[k]].kind.Mesh?
    ensures forall k, l :: 0 <= k < l < |r| ==> r[k] < r[l]
    ensures forall i :: 0 <= i < |objects| && objects[i].kind.Mesh? ==> i in r
    decreases |objects|
  {
    if |objects| == 0 then []
    else
      var n := |objects| - 1;
      var front := MeshIndices(objects[..n]);
      assert forall k :: 0 <= k < |front| ==> objects[front[k]] == objects[..n][front[k]];
      if objects[n].kind.Mesh? then front + [n] else front
  }

  function MeshNames(objects: seq<Object>): (r: seq<string>)
    ensures |r| == |MeshIndices(objects)|
  {
    var idx := MeshIndices(objects);
    seq(|idx|, k requires 0 <= k < |idx| => objects[idx[k]].name)
  }

  /** Successive `get_empty_name` calls over `names`, threading the counters. */
  function EmptyNames(names: seq<string>, counts: map<string, nat>): (r: (seq<string>, map<string, nat>))
    ensures |r.0| == |names|
    ensures forall i :: 0 <= i < |names| ==>
      r.0[i] == EmptyLabel(EmptyBase(names[i]), EmptyIndices(names, counts)[i])
    decreases |names|
  {
    if |names| == 0 then ([], counts)
    else
      var first := EmptyName(names[0], counts);
      var rest := EmptyNames(names[1..], first.1);
      ([first.0] + rest.0, rest.1)
  }

  /** The counter each successive `get_empty_name` call hands out. */
  function EmptyIndices(names: seq<string>, counts: map<string, nat>): (r: seq<nat>)
    ensures |r| == |names|
    decreases |names|
  {
    if |names| == 0 then []
    else [Count(counts, EmptyBase(names[0])) + 1] + EmptyIndices(names[1..], EmptyName(names[0], counts).1)
  }

  /** How one `get_empty_name` call moves the counter of a base. */
  lemma CountAfter(meshName: string, counts: map<string, nat>, b: string)
    ensures Count(EmptyName(meshName, counts).1, b) ==
      if b == EmptyBase(meshName) then Count(counts, b) + 1 else Count(counts, b)
  {
  }

  /** Every counter handed out lies above its base's starting count. */
  lemma {:induction false} EmptyIndicesAbove(names: seq<string>, counts: map<string, nat>, i: nat)
    requires i < |names|
    ensures EmptyIndices(names, counts)[i] > Count(counts, EmptyBase(names[i]))
    decreases |names|
  {
    if i > 0 {
      var next := EmptyName(names[0], counts).1;
      assert EmptyIndices(names, counts)[i] == EmptyIndices(names[1..], next)[i - 1];
      assert names[i] == names[1..][i - 1];
      EmptyIndicesAbove(names[1..], next, i - 1);
      CountAfter(names[0], counts, EmptyBase(names[i]));
    }
  }

  /** Past the first mesh, the counters are those handed out over the rest, after the first call. */
  lemma EmptyIndicesTail(names: seq<string>, counts: map<string, nat>, next: map<string, nat>, i: nat)
    requires 0 < i < |names| && next == EmptyName(names[0], counts).1
    ensures EmptyIndices(names, counts)[i] == EmptyIndices(names[1..], next)[i - 1]
    ensures names[i] == names[1..][i - 1]
  {
  }

  /** Within one base, a later mesh is handed a larger counter than an earlier one. */
  lemma {:induction false} EmptyIndicesIncrease(names: seq<string>, counts: map<string, nat>, i: nat, j: nat)
    requires i < j < |names| && EmptyBase(names[i]) == EmptyBase(names[j])
    ensures EmptyIndices(names, counts)[i] < EmptyIndices(names, counts)[j]
    decreases |names|
  {
    if i > 0 {
      var next := EmptyName(names[0], counts).1;
      var idx, rest := EmptyIndices(names, counts), EmptyIndices(names[1..], next);
      EmptyIndicesTail(names, counts, next, i);
      EmptyIndicesTail(names, counts, next, j);
      EmptyIndicesIncrease(names[1..], next, i - 1, j - 1);
      assert idx[i] == rest[i - 1] < rest[j - 1] == idx[j];
    } else {
      EmptyIndicesFirstBelow(names, counts, j);
    }
  }

  /** The first mesh's counter lies below every later counter of its base. */
  lemma EmptyIndicesFirstBelow(names: seq<string>, counts: map<string, nat>, j: nat)
    requires 0 < j < |names| && EmptyBase(names[0]) == EmptyBase(names[j])
    ensures EmptyIndices(names, counts)[0] < EmptyIndices(names, counts)[j]
  {
    var next := EmptyName(names[0], counts).1;
    EmptyIndicesTail(names, counts, next, j);
    EmptyIndicesAbove(names[1..], next, j - 1);
    CountAfter(names[0], counts, EmptyBase(names[0]));
  }

  /** Within one base, the counters handed out strictly increase. */
  lemma EmptyIndicesDistinct(names: seq<string>, counts: map<string, nat>)
    ensures var idx := EmptyIndices(names, counts);
      forall i, j :: 0 <= i < j < |idx| && EmptyBase(names[i]) == EmptyBase(names[j]) ==> idx[i] < idx[j]
  {
    forall i, j | 0 <= i < j < |names| && EmptyBase(names[i]) == EmptyBase(names[j])
      ensures EmptyIndices(names, counts)[i] < EmptyIndices(names, counts)[j]
    {
      EmptyIndicesIncrease(names, counts, i, j);
    }
  }

  /** How many of the first `i` names share the base `b`. */
  function BaseCount(names: seq<string>, b: string, i: nat): nat
    requires i <= |names|
    decreases i
  {
    if i == 0 then 0 else BaseCount(names, b, i - 1) + (if EmptyBase(names[i - 1]) == b then 1 else 0)
  }

  lemma {:induction false} BaseCountTail(names: seq<string>, b: string, i: nat)
    requires 0 < i <= |names|
    ensures BaseCount(names, b, i) == (if EmptyBase(names[0]) == b then 1 else 0) + BaseCount(names[1..], b, i - 1)
    decreases i
  {
    if i > 1 {
      BaseCountTail(names, b, i - 1);
      assert names[1..][i - 2] == names[i - 1];
    }
  }

  /**
   * Each counter handed out is its base's starting count plus one more than
   * the number of earlier meshes of the same base: a running count per base.
   */
  lemma {:induction false} EmptyIndicesCount(names: seq<string>, counts: map<string, nat>, i: nat)
    requires i < |names|
    ensures var b := EmptyBase(names[i]);
      EmptyIndices(names, counts)[i] == Count(counts, b) + BaseCount(names, b, i) + 1
    decreases |names|
  {
    if i > 0 {
      var b := EmptyBase(names[i]);
      var next := EmptyName(names[0], counts).1;
      EmptyIndicesTail(names, counts, next, i);
      EmptyIndicesCount(names[1..], next, i - 1);
      CountAfter(names[0], counts, b);
      BaseCountTail(names, b, i);
    }
  }

  /** No two names generated in one run are equal. */
  lemma EmptyNamesDistinct(names: seq<string>, counts: map<string, nat>, out: seq<string>)
    requires out == EmptyNames(names, counts).0
    ensures forall i, j :: 0 <= i < j < |out| ==> out[i] != out[j]
  {
    var idx := EmptyIndices(names, counts);
    forall i, j | 0 <= i < j < |out|
      ensures out[i] != out[j]
    {
      if out[i] == out[j] {
        EmptyLabelInjective(EmptyBase(names[i]), idx[i], EmptyBase(names[j]), idx[j]);
        EmptyIndicesIncrease(names, counts, i, j);
      }
    }
  }

  /** The name a mesh carries while the empties are exported: `f"{original_name}_original"`. */
  function Renamed(obj: Object): (r: Object)
    ensures r.kind == obj.kind
    ensures obj.kind.Mesh? ==> r.name == obj.name + "_original"
    ensures !obj.kind.Mesh? ==> r == obj
    ensures obj.kind.Mesh? ==> r.name != obj.name
    ensures RestoreOne([r], Replacement(0, obj.name)) == [obj]
  {
    if obj.kind.Mesh? then Object(obj.name + "_original", obj.kind) else obj
  }

  function RenameMeshes(objects: seq<Object>): (r: seq<Object>)
    ensures |r| == |objects|
    ensures forall i :: 0 <= i < |objects| ==> r[i] == Renamed(objects[i])
    ensures forall i :: 0 <= i < |objects| ==> r[i].kind == objects[i].kind && (r[i] == objects[i] <==> !objects[i].kind.Mesh?)
  {
    seq(|objects|, i requires 0 <= i < |objects| => Renamed(objects[i]))
  }

  /** One `(mesh_obj, empty, original_name)` entry of `replacements`, by position. */
  datatype Replacement = Replacement(mesh: nat, original: string)

  function Replacements(objects: seq<Object>): (r: seq<Replacement>)
    ensures |r| == |MeshIndices(objects)|
    ensures forall k :: 0 <= k < |r| ==> r[k].mesh == MeshIndices(objects)[k] && r[k].original == objects[r[k].mesh].name
  {
    var idx := MeshIndices(objects);
    seq(|idx|, k requires 0 <= k < |idx| => Replacement(idx[k], objects[idx[k]].name))
  }

  /** `mesh_obj.name = original_name` for one replacement. */
  function RestoreOne(objects: seq<Object>, rep: Replacement): (r: seq<Object>)
    ensures |r| == |objects|
    ensures forall i :: 0 <= i < |objects| ==> r[i].kind == objects[i].kind
    ensures rep.mesh < |objects| ==> r[rep.mesh].name == rep.original
    ensures forall i :: 0 <= i < |objects| && i != rep.mesh ==> r[i] == objects[i]
  {
    if rep.mesh < |objects| then objects[rep.mesh := Object(rep.original, objects[rep.mesh].kind)] else objects
  }

  /** The restore loop over `replacements`, in order. */
  function RestoreNames(objects: seq<Object>, reps: seq<Replacement>): (r: seq<Object>)
    ensures |r| == |objects|
    ensures forall i :: 0 <= i < |objects| ==> r[i].kind == objects[i].kind
    decreases |reps|
  {
    if |reps| == 0 then objects else RestoreNames(RestoreOne(objects, reps[0]), reps[1..])
  }

  predicate Targets(reps: seq<Replacement>, i: nat)
  {
    exists k :: 0 <= k < |reps| && reps[k].mesh == i
  }

  /** Restoring renames exactly the replaced objects, each to its recorded name. */
  lemma {:induction false} RestoreNamesEffect(objects: seq<Object>, reps: seq<Replacement>)
    requires forall k :: 0 <= k < |reps| ==> reps[k].mesh < |objects|
    requires forall k, l :: 0 <= k < l < |reps| ==> reps[k].mesh != reps[l].mesh
    ensures var r := RestoreNames(objects, reps);
      && |r| == |objects|
      && (forall k :: 0 <= k < |reps| ==> r[reps[k].mesh] == Object(reps[k].original, objects[reps[k].mesh].kind))
      && (forall i :: 0 <= i < |objects| && !Targets(reps, i) ==> r[i] == objects[i])
    decreases |reps|
  {
    if |reps| > 0 {
      var once := RestoreOne(objects, reps[0]);
      var rest := reps[1..];
      RestoreNamesEffect(once, rest);
      var r := RestoreNames(objects, reps);
      assert r == RestoreNames(once, rest);
      forall k | 0 <= k < |reps|
        ensures r[reps[k].mesh] == Object(reps[k].original, objects[reps[k].mesh].kind)
      {
        if k > 0 {
          assert rest[k - 1] == reps[k];
          assert reps[k].mesh != reps[0].mesh;
        } else {
          assert !Targets(rest, reps[0].mesh);
        }
      }
      assert forall k :: 0 <= k < |rest| ==> rest[k] == reps[k + 1];
    }
  }

  /** Renaming the meshes and then running the restore loop gives back the scene unchanged. */
  lemma RestoreUndoesRename(objects: seq<Object>)
    ensures RestoreNames(RenameMeshes(objects), Replacements(objects)) == objects
  {
    var renamed := RenameMeshes(objects);
    var reps := Replacements(objects);
    RestoreNamesEffect(renamed, reps);
    var r := RestoreNames(renamed, reps);
    forall i | 0 <= i < |objects|
      ensures r[i] == objects[i]
    {
      if objects[i].kind.Mesh? {
        var k :| 0 <= k < |MeshIndices(objects)| && MeshIndices(objects)[k] == i;
        assert reps[k].mesh == i;
      } else {
        assert !Targets(reps, i);
      }
    }
  }

  /** The empties made for the meshes, in iteration order, all displayed as plain axes. */
  function NewEmpties(objects: seq<Object>): (r: seq<Object>)
    ensures |r| == |MeshIndices(objects)|
    ensures forall k :: 0 <= k < |r| ==> r[k].kind == Empty(PlainAxes)
    ensures forall k :: 0 <= k < |r| ==>
      r[k].name == EmptyLabel(EmptyBase(MeshNames(objects)[k]), EmptyIndices(MeshNames(objects), map[])[k])
    ensures forall k, l :: 0 <= k < l < |r| ==> r[k].name != r[l].name
  {
    var names := EmptyNames(MeshNames(objects), map[]).0;
    EmptyNamesDistinct(MeshNames(objects), map[], names);
    seq(|names|, k requires 0 <= k < |names| => Object(names[k], Empty(PlainAxes)))
  }

  /** What the glTF exporter is handed: the empties (new and existing) and the cameras. */
  function Selection(scene: seq<Object>): (r: seq<Object>)
    ensures forall o :: o in r <==> o in scene && (o.kind.Empty? || o.kind.Camera?)
  {
    if |scene| == 0 then []
    else
      var rest := Selection(scene[1..]);
      assert forall o :: o in scene <==> o == scene[0] || o in scene[1..];
      if scene[0].kind.Empty? || scene[0].kind.Camera? then [scene[0]] + rest else rest
  }

  datatype Outcome =
    | Cancelled
    | Failed(error: Error)
    /** The exported file, the scene at export time, what was selected for export, and the scene afterwards. */
    | Exported(path: Path, during: seq<Object>, selected: seq<Object>, after: seq<Object>)

  /** `execute`, with the missing-file case of `get_export_path` cancelling the operator. */
  function Execute(objects: seq<Object>, blend: Path, onDisk: bool): (r: Outcome)
    ensures !r.Failed?
    ensures r.Cancelled? <==> !onDisk
    ensures r.Exported? ==> r.path == ExportPath(blend, onDisk).value
    ensures r.Exported? ==> r.after == objects
    ensures r.Exported? ==> r.during == RenameMeshes(objects) + NewEmpties(objects)
  {
    match ExportPath(blend, onDisk)
    case None => Cancelled
    case Some(path) =>
      var renamed := RenameMeshes(objects);
      var during := renamed + NewEmpties(objects);
      RestoreUndoesRename(objects);
      Exported(path, during, Selection(during), RestoreNames(renamed, Replacements(objects)))
  }

  /**
   * `execute` as written: `get_export_path` raises TypeError for a missing
   * file before the `if not export_path` test can cancel.
   */
  function ExecuteAsWritten(objects: seq<Object>, blend: Path, onDisk: bool): (r: Outcome)
    ensures !r.Cancelled?
    ensures r.Failed? <==> !onDisk
    ensures r.Failed? ==> r.error == TypeError
    ensures !r.Failed? ==> r == Execute(objects, blend, onDisk)
  {
    match ExportPathAsWritten(blend, onDisk)
    case Err(e) => Failed(e)
    case Ok(_) => Execute(objects, blend, onDisk)
  }

  lemma MissingFileRaises(objects: seq<Object>, blend: Path)
    ensures ExecuteAsWritten(objects, blend, false) == Failed(TypeError)
    ensures Execute(objects, blend, false) == Cancelled
  {
  }

  /** While exporting, every mesh carries its `_original` name. */
  lemma MeshesRenamedDuringExport(objects: seq<Object>, blend: Path)
    ensures var r := Execute(objects, blend, true);
      forall i :: 0 <= i < |objects| && objects[i].kind.Mesh? ==>
        r.during[i] == Object(objects[i].name + "_original", Mesh)
  {
    var r := Execute(objects, blend, true);
    assert forall i :: 0 <= i < |objects| ==> r.during[i] == RenameMeshes(objects)[i];
  }

  /** The exporter sees every new empty. */
  lemma NewEmptiesSelected(objects: seq<Object>, blend: Path)
    ensures var r := Execute(objects, blend, true);
      forall o :: o in NewEmpties(objects) ==> o in r.selected
  {
    var r := Execute(objects, blend, true);
    var es := NewEmpties(objects);
    assert r.during == RenameMeshes(objects) + es;
    forall o | o in es
      ensures o in r.selected
    {
      var k :| 0 <= k < |es| && es[k] == o;
      assert o.kind.Empty?;
      assert o in RenameMeshes(objects) + es;
    }
  }

  /** The exporter sees no mesh. */
  lemma NoMeshSelected(objects: seq<Object>, blend: Path)
    ensures var r := Execute(objects, blend, true);
      forall o :: o in r.selected ==> !o.kind.Mesh?
  {
  }

  lemma TwoMeshes(x: Object, y: Object)
    requires x.kind.Mesh? && y.kind.Mesh?
    ensures MeshIndices([x, y]) == [0, 1]
  {
    assert [x, y][..1] == [x];
    assert [x][..0] == [];
    assert MeshIndices([x]) == [0];
  }

  /** A second mesh whose base is new to the run gets counter 1. */
  lemma SecondOfNewBase(b: string, names: seq<string>)
    requires |names| == 2 && EmptyBase(names[0]) != b && EmptyBase(names[1]) == b
    ensures EmptyNames(names, map[]).0[1] == EmptyLabel(b, 1)
  {
    EmptyIndicesCount(names, map[], 1);
  }

  /**
   * An empty's name can be the original name of another mesh: with meshes
   * `b_1` and `a_b`, the empty made for `a_b` is `b_1`, and it is still in
   * the scene when the first mesh is renamed back to `b_1`.
   */
  lemma EmptyNameClashesWithMesh(a: string, b: string, objects: seq<Object>)
    requires '.' !in a && '_' !in a && '.' !in b && '_' !in b && !AllDigits(b)
    requires |objects| == 2
    requires objects[0] == Object(EmptyLabel(b, 1), Mesh) && objects[1] == Object(a + "_" + b, Mesh)
    ensures |NewEmpties(objects)| == 2
    ensures NewEmpties(objects)[1].name == objects[0].name
  {
    TwoMeshes(objects[0], objects[1]);
    assert objects == [objects[0], objects[1]];
    EmptyBaseOfPair(a, b);
    EmptyBaseOfLabel(b, 1);
    SecondOfNewBase(b, MeshNames(objects));
  }
}

=== FILE: export_parts.dfy ===
/**
 * The "Export Parts" operator: every mesh is exported as its own `.glb`,
 * named after the model name derived from the mesh's name, and only the
 * first mesh of each model name is exported.
 */
module ExportParts {
  import opened Wrappers
  import opened Paths
  import opened Naming
  import opened Scene

  /** A model name and the position of the mesh that claimed it. */
  datatype Claim = Claim(model: string, index: nat)

  function Models(claims: seq<Claim>): (r: seq<string>)
    ensures |r| == |claims|
    ensures forall i :: 0 <= i < |claims| ==> r[i] == claims[i].model
  {
    seq(|claims|, i requires 0 <= i < |claims| => claims[i].model)
  }

  /** The `exported_models` bookkeeping of the export loop, after visiting all of `objects`. */
  function Claims(objects: seq<Object>): (r: seq<Claim>)
    ensures forall i :: 0 <= i < |r| ==> MapsTo(objects, r[i].index, r[i].model)
    ensures forall i :: 0 <= i < |r| ==> r[i].index < |objects|
    decreases |objects|
  {
    if |objects| == 0 then []
    else
      var prev := Claims(objects[..|objects| - 1]);
      assert forall k :: 0 <= k < |prev| ==> objects[prev[k].index] == objects[..|objects| - 1][prev[k].index];
      var obj := objects[|objects| - 1];
      if obj.kind.Mesh? && ModelName(obj.name) !in Models(prev) then
        prev + [Claim(ModelName(obj.name), |objects| - 1)]
      else prev
  }

  /** The mesh at `j` maps to model name `m`. */
  predicate MapsTo(objects: seq<Object>, j: int, m: string)
  {
    0 <= j < |objects| && objects[j].kind.Mesh? && ModelName(objects[j].name) == m
  }

  /** No model name is exported twice. */
  predicate DistinctModels(claims: seq<Claim>)
  {
    forall i, j :: 0 <= i < j < |claims| ==> claims[i].model != claims[j].model
  }

  /** Claims are made in iteration order, each by the first mesh mapping to the claimed name. */
  predicate FirstClaims(objects: seq<Object>, claims: seq<Claim>)
  {
    && (forall i, j :: 0 <= i < j < |claims| ==> claims[i].index < claims[j].index)
    && (forall i :: 0 <= i < |claims| ==> MapsTo(objects, claims[i].index, claims[i].model))
    && (forall i, j :: 0 <= i < |claims| && 0 <= j < claims[i].index ==> !MapsTo(objects, j, claims[i].model))
  }

  /** Every mesh's model name is exported. */
  predicate Covers(objects: seq<Object>, claims: seq<Claim>)
  {
    forall j :: 0 <= j < |objects| && objects[j].kind.Mesh? ==> ModelName(objects[j].name) in Models(claims)
  }

  predicate WellClaimed(objects: seq<Object>, claims: seq<Claim>)
  {
    DistinctModels(claims) && FirstClaims(objects, claims) && Covers(objects, claims)
  }

  lemma {:induction false} ClaimsWellClaimed(objects: seq<Object>)
    ensures WellClaimed(objects, Claims(objects))
    decreases |objects|
  {
    if |objects| > 0 {
      var n := |objects| - 1;
      var front := objects[..n];
      ClaimsWellClaimed(front);
      var prev := Claims(front);
      var obj := objects[n];
      var m := ModelName(obj.name);
      if obj.kind.Mesh? && m !in Models(prev) {
        ExtendClaims(objects, prev, Claim(m, n));
      } else {
        KeepClaims(objects, prev);
      }
    }
  }

  lemma KeepClaims(objects: seq<Object>, prev: seq<Claim>)
    requires |objects| > 0
    requires var last := objects[|objects| - 1]; last.kind.Mesh? ==> ModelName(last.name) in Models(prev)
    requires WellClaimed(objects[..|objects| - 1], prev)
    ensures WellClaimed(objects, prev)
  {
    var n := |objects| - 1;
    var front := objects[..n];
    forall i | 0 <= i < |prev|
      ensures MapsTo(objects, prev[i].index, prev[i].model) && prev[i].index < n
    {
      MapsToFront(objects, n, prev[i].index, prev[i].model);
    }
    forall i, j | 0 <= i < |prev| && 0 <= j < prev[i].index
      ensures !MapsTo(objects, j, prev[i].model)
    {
      MapsToFront(objects, n, j, prev[i].model);
    }
    forall j | 0 <= j < n && objects[j].kind.Mesh?
      ensures ModelName(objects[j].name) in Models(prev)
    {
      assert objects[j] == front[j];
    }
  }

  lemma MapsToFront(objects: seq<Object>, n: nat, j: int, m: string)
    requires n <= |objects| && j < n
    ensures MapsTo(objects[..n], j, m) <==> MapsTo(objects, j, m)
  {
  }

  lemma ExtendClaims(objects: seq<Object>, prev: seq<Claim>, c: Claim)
    requires |objects| > 0 && c.index == |objects| - 1
    requires MapsTo(objects, c.index, c.model)
    requires c.model !in Models(prev)
    requires WellClaimed(objects[..c.index], prev)
    ensures WellClaimed(objects, prev + [c])
  {
    ExtendDistinct(prev, c);
    ExtendFirst(objects, prev, c);
    ExtendCovers(objects, prev, c);
  }

  lemma ExtendDistinct(prev: seq<Claim>, c: Claim)
    requires DistinctModels(prev)
    requires c.model !in Models(prev)
    ensures DistinctModels(prev + [c])
  {
    forall i | 0 <= i < |prev|
      ensures prev[i].model != c.model
    {
      assert Models(prev)[i] == prev[i].model;
    }
  }

  lemma ExtendFirst(objects: seq<Object>, prev: seq<Claim>, c: Claim)
    requires |objects| > 0 && c.index == |objects| - 1
    requires MapsTo(objects, c.index, c.model)
    requires c.model !in Models(prev)
    requires FirstClaims(objects[..c.index], prev) && Covers(objects[..c.index], prev)
    ensures FirstClaims(objects, prev + [c])
  {
    var n := c.index;
    var r := prev + [c];
    forall i | 0 <= i < |prev|
      ensures MapsTo(objects, prev[i].index, prev[i].model) && prev[i].index < n
    {
      MapsToFront(objects, n, prev[i].index, prev[i].model);
    }
    forall i, j | 0 <= i < |r| && 0 <= j < r[i].index
      ensures !MapsTo(objects, j, r[i].model)
    {
      if i < |prev| {
        assert r[i] == prev[i];
        MapsToFront(objects, n, j, prev[i].model);
      } else {
        assert r[i] == c;
        NewClaimIsFirst(objects, prev, c, j);
      }
    }
  }

  /** No mesh before a new claim maps to its model name, since every earlier mesh's name is claimed already. */
  lemma NewClaimIsFirst(objects: seq<Object>, prev: seq<Claim>, c: Claim, j: nat)
    requires j < c.index < |objects|
    requires c.model !in Models(prev)
    requires Covers(objects[..c.index], prev)
    ensures !MapsTo(objects, j, c.model)
  {
    var front := objects[..c.index];
    assert front[j] == objects[j];
  }

  lemma ExtendCovers(objects: seq<Object>, prev: seq<Claim>, c: Claim)
    requires |objects| > 0 && c.index == |objects| - 1
    requires MapsTo(objects, c.index, c.model)
    requires Covers(objects[..c.index], prev)
    ensures Covers(objects, prev + [c])
  {
    var n := c.index;
    var front := objects[..n];
    var r := prev + [c];
    assert Models(r) == Models(prev) + [c.model];
    forall j | 0 <= j < |objects| && objects[j].kind.Mesh?
      ensures ModelName(objects[j].name) in Models(r)
    {
      if j < n {
        assert objects[j] == front[j];
      }
    }
  }

  /** The model names `execute` exports, in export order: pairwise distinct, one per mesh model name. */
  lemma ExportedModels(objects: seq<Object>, ms: seq<string>)
    requires ms == Models(Claims(objects))
    ensures forall i, j :: 0 <= i < j < |ms| ==> ms[i] != ms[j]
    ensures forall m :: m in ms <==> exists j :: MapsTo(objects, j, m)
  {
    ClaimsWellClaimed(objects);
    var cs := Claims(objects);
    assert forall i :: 0 <= i < |ms| ==> MapsTo(objects, cs[i].index, ms[i]);
  }

  lemma NoMeshNoModels(objects: seq<Object>)
    ensures (forall j :: 0 <= j < |objects| ==> !objects[j].kind.Mesh?) <==> Models(Claims(objects)) == []
  {
    ClaimsWellClaimed(objects);
  }

  /** The file a part is exported to: `export_root / f"{model_name}.glb"`. */
  function PartFile(root: Path, model: string): Path
  {
    Join(root, model + ".glb")
  }

  lemma PartFilesDistinct(root: Path, m1: string, m2: string)
    requires '/' !in m1 && '/' !in m2 && m1 != m2
    ensures PartFile(root, m1) != PartFile(root, m2)
    ensures Parent(PartFile(root, m1)) == root && Name(PartFile(root, m1)) == m1 + ".glb"
  {
    assert (m1 + ".glb")[|m1|] == '.';
    JoinComponent(root, m1 + ".glb");
    JoinComponent(root, m2 + ".glb");
    assert (m1 + ".glb")[..|m1|] == m1;
    assert (m2 + ".glb")[..|m2|] == m2;
  }

  /** How a run of the operator ends. */
  datatype Outcome =
    | Cancelled
    | Failed(error: Error)
    /** `reported` is the path in the closing report: the last file written, if any. */
    | Finished(models: seq<string>, files: seq<Path>, reported: Option<Path>)

  function PartFiles(root: Path, models: seq<string>): (r: seq<Path>)
    ensures |r| == |models|
    ensures forall i :: 0 <= i < |models| ==> r[i] == PartFile(root, models[i])
  {
    seq(|models|, i requires 0 <= i < |models| => PartFile(root, models[i]))
  }

  /**
   * `execute` as written: the closing report reads `export_path`, which is
   * only bound inside the loop, so a scene without meshes raises
   * UnboundLocalError after the (empty) export.
   */
  function ExecuteAsWritten(objects: seq<Object>, blend: Path, onDisk: bool): (r: Outcome)
    ensures !onDisk ==> r == Cancelled
    ensures onDisk && (forall j :: 0 <= j < |objects| ==> !objects[j].kind.Mesh?) ==> r == Failed(UnboundLocalError)
    ensures onDisk && (exists j :: 0 <= j < |objects| && objects[j].kind.Mesh?) ==> r == Execute(objects, blend, onDisk)
    ensures r.Finished? ==> r == Execute(objects, blend, onDisk)
  {
    if !onDisk then Cancelled
    else match ExportFolder(blend, onDisk)
      case None => Cancelled
      case Some(root) =>
        var models := Models(Claims(objects));
        NoMeshNoModels(objects);
        if |models| == 0 then Failed(UnboundLocalError)
        else Finished(models, PartFiles(root, models), Some(PartFile(root, models[|models| - 1])))
  }

  /** `execute` with the report's path bound only when some part was written. */
  function Execute(objects: seq<Object>, blend: Path, onDisk: bool): (r: Outcome)
    ensures r.Cancelled? <==> !onDisk
    ensures r.Finished? ==> |r.files| == |r.models| && (r.reported.Some? <==> |r.models| > 0)
    ensures r.Finished? && |r.models| > 0 ==> r.reported == Some(r.files[|r.files| - 1])
    ensures r.Finished? ==> forall m :: m in r.models <==> exists j :: MapsTo(objects, j, m)
    ensures r.Finished? ==> forall i, j :: 0 <= i < j < |r.models| ==> r.models[i] != r.models[j]
    ensures r.Finished? ==> forall i :: 0 <= i < |r.files| ==>
      r.files[i] == PartFile(ExportFolder(blend, onDisk).value, r.models[i])
  {
    if !onDisk then Cancelled
    else match ExportFolder(blend, onDisk)
      case None => Cancelled
      case Some(root) =>
        var models := Models(Claims(objects));
        ExportedModels(objects, models);
        var files := PartFiles(root, models);
        Finished(models, files, if |models| == 0 then None else Some(files[|files| - 1]))
  }

  lemma NoMeshesFails(blend: Path)
    ensures ExecuteAsWritten([Object("Camera", Camera)], blend, true) == Failed(UnboundLocalError)
    ensures Execute([Object("Camera", Camera)], blend, true) == Finished([], [], None)
  {
  }
}

=== FILE: material_file.dfy ===
/**
 * `MaterialFile`: the shared JSON registry of material parameters. Loaded,
 * it is an index from each record's `identifier` to the record, in dict
 * insertion order; saved, it is the list of those records under
 * `hammerstone:global_definitions` / `hs_materials`.
 */
module MaterialFile {
  import opened Wrappers
  import opened Paths

  /** A value as `json.load` returns it. */
  datatype Json =
    | JNull
    | JBool(b: bool)
    | JNum(n: real)
    | JStr(s: string)
    | JArr(items: seq<Json>)
    | JObj(fields: map<string, Json>)

  const GlobalDefinitions: string := "hammerstone:global_definitions"
  const HsMaterials: string := "hs_materials"
  const Identifier: string := "identifier"

  /** `value[key]` with a string key: KeyError on a dict without it, TypeError on anything else. */
  function Subscript(value: Json, key: string): (r: Result<Json>)
    ensures r.Ok? <==> value.JObj? && key in value.fields
    ensures r.Ok? ==> r.value == value.fields[key]
    ensures r.Err? ==> r.error == if value.JObj? then KeyError else TypeError
  {
    match value
    case JObj(fields) => if key in fields then Ok(fields[key]) else Err(KeyError)
    case _ => Err(TypeError)
  }

  /** Values Python can use as dict keys; lists and dicts raise TypeError. */
  predicate Hashable(j: Json)
  {
    !j.JArr? && !j.JObj?
  }

  /**
   * The equality class of a dict key. Python's `True == 1 == 1.0` and
   * `False == 0` (with equal hashes) make a boolean key the same key as its
   * number, so booleans stand for 1 and 0; every other value is its own
   * class. The add-on never reads keys back, so which of several equal key
   * objects a dict keeps is not observable.
   */
  function Key(j: Json): (r: Json)
    ensures Hashable(j) <==> Hashable(r)
    ensures !r.JBool?
    ensures !j.JBool? ==> r == j
  {
    match j
    case JBool(b) => JNum(if b then 1.0 else 0.0)
    case _ => j
  }

  /** Python's `==` on two hashable JSON values. */
  predicate PyKeyEq(a: Json, b: Json)
  {
    match (a, b)
    case (JBool(x), JBool(y)) => x == y
    case (JBool(x), JNum(n)) => n == if x then 1.0 else 0.0
    case (JNum(n), JBool(y)) => n == if y then 1.0 else 0.0
    case _ => a == b
  }

  /** Two keys share a class exactly when Python finds them equal. */
  lemma KeyIsPythonEquality(a: Json, b: Json)
    requires Hashable(a) && Hashable(b)
    ensures Key(a) == Key(b) <==> PyKeyEq(a, b)
  {
    match (a, b)
    case (JBool(x), JBool(y)) =>
    case (JBool(x), _) =>
    case (_, JBool(y)) =>
    case _ =>
  }

  /** A Python dict: its keys in insertion order, each with its value at the same position. */
  datatype Dict = Dict(keys: seq<Json>, vals: seq<Json>)

  /** `MaterialFile.index`. */
  type Index = d: Dict | |d.keys| == |d.vals| witness Dict([], [])

  /** No key occurs twice, as in every Python dict. */
  ghost predicate DistinctKeys(ix: Index)
  {
    forall i, j :: 0 <= i < j < |ix.keys| ==> ix.keys[i] != ix.keys[j]
  }

  const EmptyIndex: Index := Dict([], [])

  /** The position of `k` in `keys`, or `|keys|` when it is absent. */
  function Position(keys: seq<Json>, k: Json): (i: nat)
    ensures i <= |keys|
    ensures i < |keys| ==> keys[i] == k
    ensures forall j :: 0 <= j < i ==> keys[j] != k
    ensures i == |keys| <==> k !in keys
    decreases |keys|
  {
    if |keys| == 0 then 0
    else if keys[0] == k then 0
    else 1 + Position(keys[1..], k)
  }

  /** `index.get(k)`. */
  function Lookup(ix: Index, k: Json): (r: Option<Json>)
    ensures r.Some? <==> k in ix.keys
    ensures DistinctKeys(ix) ==> forall i :: 0 <= i < |ix.keys| && ix.keys[i] == k ==> r == Some(ix.vals[i])
  {
    var i := Position(ix.keys, k);
    if i < |ix.keys| then Some(ix.vals[i]) else None
  }

  /** `index[key] = value`: a new key goes last, an existing key keeps its place. */
  function Upsert(ix: Index, key: Json, value: Json): (r: Index)
    requires Hashable(key)
    ensures key in ix.keys ==> r.keys == ix.keys
    ensures key !in ix.keys ==> r.keys == ix.keys + [key] && r.vals == ix.vals + [value]
  {
    var i := Position(ix.keys, key);
    if i < |ix.keys| then Dict(ix.keys, ix.vals[i := value])
    else Dict(ix.keys + [key], ix.vals + [value])
  }

  /** After an upsert the key holds the new value and every other key holds what it held before. */
  lemma UpsertLookup(ix: Index, key: Json, value: Json, k: Json)
    requires Hashable(key)
    ensures Lookup(Upsert(ix, key, value), k) == if k == key then Some(value) else Lookup(ix, k)
  {
    var r := Upsert(ix, key, value);
    var i := Position(ix.keys, key);
    var p := Position(ix.keys, k);
    if i < |ix.keys| {
      assert r == Dict(ix.keys, ix.vals[i := value]);
      assert Position(r.keys, k) == p;
      if k != key {
        assert p != i;
      }
    } else if k == key {
      assert r.keys == ix.keys + [key];
      assert key !in ix.keys;
      PositionOfAppended(ix.keys, key);
    } else if k in ix.keys {
      PositionOfPrefix(ix.keys, [key], k);
    } else {
      assert k !in r.keys;
    }
  }

  lemma PositionOfAppended(a: seq<Json>, k: Json)
    requires k !in a
    ensures Position(a + [k], k) == |a|
  {
    assert (a + [k])[|a|] == k;
    assert forall j :: 0 <= j < |a| ==> (a + [k])[j] == a[j];
  }

  lemma UpsertLookupAll(ix: Index, key: Json, value: Json)
    requires Hashable(key)
    ensures forall k :: Lookup(Upsert(ix, key, value), k) == if k == key then Some(value) else Lookup(ix, k)
  {
    forall k {
      UpsertLookup(ix, key, value, k);
    }
  }

  lemma {:induction false} PositionOfPrefix(a: seq<Json>, b: seq<Json>, k: Json)
    requires k in a
    ensures Position(a + b, k) == Position(a, k)
    decreases |a|
  {
    if a[0] != k {
      assert (a + b)[1..] == a[1..] + b;
      PositionOfPrefix(a[1..], b, k);
    }
  }

  /** An upsert keeps the keys distinct. */
  lemma UpsertDistinct(ix: Index, key: Json, value: Json)
    requires Hashable(key) && DistinctKeys(ix)
    ensures DistinctKeys(Upsert(ix, key, value))
  {
  }

  /** The identifier a record is indexed under. */
  function IdOf(record: Json): Json
  {
    if record.JObj? && Identifier in record.fields then record.fields[Identifier] else JNull
  }

  /** A record `build_index` accepts: a dict with a hashable `identifier`. */
  predicate Indexable(record: Json)
  {
    record.JObj? && Identifier in record.fields && Hashable(record.fields[Identifier])
  }

  /** One turn of the `build_index` loop: index `record` under (the class of) its identifier. */
  function AddEntry(acc: Result<Index>, record: Json): (r: Result<Index>)
    ensures r.Ok? <==> acc.Ok? && Indexable(record)
    ensures r.Ok? ==> r.value == Upsert(acc.value, Key(IdOf(record)), record)
    ensures acc.Err? ==> r == acc
  {
    match acc
    case Err(e) => Err(e)
    case Ok(ix) =>
      match Subscript(record, Identifier)
      case Err(e) => Err(e)
      case Ok(id) => if Hashable(id) then Ok(Upsert(ix, Key(id), record)) else Err(TypeError)
  }

  /** The loop of `build_index` over `entries`, stopping at the first record it cannot index. */
  function BuildFrom(entries: seq<Json>): (r: Result<Index>)
    ensures r.Ok? ==> |r.value.keys| <= |entries|
    decreases |entries|
  {
    if |entries| == 0 then Ok(EmptyIndex)
    else AddEntry(BuildFrom(entries[..|entries| - 1]), entries[|entries| - 1])
  }

  /** Iterating over `hs_materials`: an empty dict or string yields nothing, a non-empty one yields unindexable items. */
  function BuildIndex(data: Json): (r: Result<Index>)
    ensures !data.JObj? ==> r == Err(TypeError)
    ensures data.JObj? && GlobalDefinitions !in data.fields ==> r == Err(KeyError)
    ensures r.Ok? ==> Subscript(Subscript(data, GlobalDefinitions).value, HsMaterials).Ok?
  {
    match Subscript(data, GlobalDefinitions)
    case Err(e) => Err(e)
    case Ok(defs) =>
      match Subscript(defs, HsMaterials)
      case Err(e) => Err(e)
      case Ok(list) =>
        match list
        case JArr(entries) => BuildFrom(entries)
        case JObj(fields) => if |fields| == 0 then Ok(EmptyIndex) else Err(TypeError)
        case JStr(s) => if |s| == 0 then Ok(EmptyIndex) else Err(TypeError)
        case _ => Err(TypeError)
  }

  /** `build_index` succeeds exactly when every entry is indexable. */
  lemma {:induction false} BuildFromSucceeds(entries: seq<Json>)
    ensures BuildFrom(entries).Ok? <==> forall i :: 0 <= i < |entries| ==> Indexable(entries[i])
    decreases |entries|
  {
    if |entries| > 0 {
      var front := entries[..|entries| - 1];
      BuildFromSucceeds(front);
      assert forall i :: 0 <= i < |front| ==> front[i] == entries[i];
    }
  }

  /** Every record's identifier is a key of the index `build_index` builds. */
  lemma {:induction false} BuildFromIndexesAll(entries: seq<Json>, i: nat)
    requires BuildFrom(entries).Ok?
    requires i < |entries|
    ensures Lookup(BuildFrom(entries).value, Key(IdOf(entries[i]))).Some?
    decreases |entries|
  {
    var n := |entries| - 1;
    var front := entries[..n];
    var prev := BuildFrom(front).value;
    var key := Key(IdOf(entries[n]));
    var id := Key(IdOf(entries[i]));
    assert BuildFrom(entries).value == Upsert(prev, key, entries[n]);
    UpsertLookup(prev, key, entries[n], id);
    if i < n {
      assert front[i] == entries[i];
      BuildFromIndexesAll(front, i);
    } else {
      assert i == n;
    }
  }

  /** Every key of the index is the identifier of some record. */
  lemma {:induction false} BuildFromKeysAreIdentifiers(entries: seq<Json>)
    requires BuildFrom(entries).Ok?
    ensures forall k :: k in BuildFrom(entries).value.keys ==> exists i :: 0 <= i < |entries| && Key(IdOf(entries[i])) == k
    decreases |entries|
  {
    if |entries| > 0 {
      var n := |entries| - 1;
      var front := entries[..n];
      BuildFromKeysAreIdentifiers(front);
      var prev := BuildFrom(front).value;
      var ix := BuildFrom(entries).value;
      assert ix == Upsert(prev, Key(IdOf(entries[n])), entries[n]);
      forall k | k in ix.keys
        ensures exists i :: 0 <= i < |entries| && Key(IdOf(entries[i])) == k
      {
        if k != Key(IdOf(entries[n])) {
          assert k in prev.keys;
          var i :| 0 <= i < |front| && Key(IdOf(front[i])) == k;
          assert Key(IdOf(entries[i])) == k;
        }
      }
    }
  }

  /** For an identifier that several records share (up to Python equality), the last of them is the one indexed. */
  lemma {:induction false} BuildFromLastWins(entries: seq<Json>, i: nat)
    requires BuildFrom(entries).Ok?
    requires i < |entries|
    requires forall j :: i < j < |entries| ==> Key(IdOf(entries[j])) != Key(IdOf(entries[i]))
    ensures Lookup(BuildFrom(entries).value, Key(IdOf(entries[i]))) == Some(entries[i])
    decreases |entries|
  {
    var n := |entries| - 1;
    var front := entries[..n];
    var ix := BuildFrom(entries).value;
    assert ix == Upsert(BuildFrom(front).value, Key(IdOf(entries[n])), entries[n]);
    UpsertLookup(BuildFrom(front).value, Key(IdOf(entries[n])), entries[n], Key(IdOf(entries[i])));
    if i < n {
      assert front[i] == entries[i];
      forall j | i < j < |front|
        ensures Key(IdOf(front[j])) != Key(IdOf(front[i]))
      {
        assert front[j] == entries[j];
      }
      BuildFromLastWins(front, i);
    }
  }

  /** `get_materials`: the index's records, one per key, in key order. */
  function GetMaterials(ix: Index): (r: seq<Json>)
    ensures |r| == |ix.keys|
    ensures DistinctKeys(ix) ==> forall i :: 0 <= i < |r| ==> Lookup(ix, ix.keys[i]) == Some(r[i])
  {
    ix.vals
  }

  /** `get_default_data`: the registry with no materials, which is what saving the empty index writes. */
  function DefaultData(): (r: Json)
    ensures BuildIndex(r) == Ok(EmptyIndex)
    ensures r == Save(EmptyIndex)
  {
    JObj(map[GlobalDefinitions := JObj(map[HsMaterials := JArr([])])])
  }

  /** The document `save` dumps: the default data with the index's records as `hs_materials`. */
  function Save(ix: Index): (r: Json)
    ensures BuildIndex(r) == BuildFrom(GetMaterials(ix))
  {
    var defs := JObj(map[HsMaterials := JArr(GetMaterials(ix))]);
    var r := JObj(map[GlobalDefinitions := defs]);
    assert Subscript(r, GlobalDefinitions) == Ok(defs);
    assert Subscript(defs, HsMaterials) == Ok(JArr(ix.vals));
    r
  }

  /** Keys are distinct, and every record is a dict whose identifier is (equal to) the key it is stored under. */
  ghost predicate KeyedByIdentifier(ix: Index)
  {
    && DistinctKeys(ix)
    && forall i :: 0 <= i < |ix.vals| ==> Indexable(ix.vals[i]) && Key(IdOf(ix.vals[i])) == ix.keys[i]
  }

  /** What `build_index` produces is always keyed by identifier. */
  lemma {:induction false} BuildFromKeyed(entries: seq<Json>)
    requires BuildFrom(entries).Ok?
    ensures KeyedByIdentifier(BuildFrom(entries).value)
    decreases |entries|
  {
    if |entries| > 0 {
      var n := |entries| - 1;
      BuildFromKeyed(entries[..n]);
      UpsertKeyed(BuildFrom(entries[..n]).value, entries[n]);
    }
  }

  /** Indexing a record under its own identifier keeps the index keyed by identifier. */
  lemma UpsertKeyed(ix: Index, record: Json)
    requires Indexable(record)
    ensures KeyedByIdentifier(ix) ==> KeyedByIdentifier(Upsert(ix, Key(IdOf(record)), record))
  {
    if KeyedByIdentifier(ix) {
      UpsertDistinct(ix, Key(IdOf(record)), record);
    }
  }

  lemma {:induction false} SavedPrefixReloads(ix: Index, m: nat)
    requires KeyedByIdentifier(ix)
    requires m <= |ix.keys|
    ensures BuildFrom(ix.vals[..m]) == Ok(Dict(ix.keys[..m], ix.vals[..m]))
    decreases m
  {
    if m > 0 {
      SavedPrefixReloads(ix, m - 1);
      assert ix.vals[..m][..m - 1] == ix.vals[..m - 1];
      var k := ix.keys[m - 1];
      var v := ix.vals[m - 1];
      SnocPrefix(ix.keys, m);
      SnocPrefix(ix.vals, m);
      var prev: Index := Dict(ix.keys[..m - 1], ix.vals[..m - 1]);
      assert k !in prev.keys;
      assert Indexable(v) && Key(IdOf(v)) == k;
      assert AddEntry(Ok(prev), v) == Ok(Upsert(prev, k, v));
    }
  }

  lemma SnocPrefix<T>(s: seq<T>, m: nat)
    requires 0 < m <= |s|
    ensures s[..m] == s[..m - 1] + [s[m - 1]]
  {
  }

  /** `save` followed by `build_index` gives back the same index, order included. */
  lemma SaveThenBuild(ix: Index)
    requires KeyedByIdentifier(ix)
    ensures BuildIndex(Save(ix)) == Ok(ix)
  {
    SavedPrefixReloads(ix, |ix.keys|);
    assert ix.vals[..|ix.keys|] == ix.vals;
    assert ix.keys[..|ix.keys|] == ix.keys;
  }

  /** Identifiers `true` and `1` are one key: the dict keeps one entry, holding the later record. */
  lemma EqualKeysShareAnEntry()
    ensures var first := JObj(map[Identifier := JBool(true)]);
      var second := JObj(map[Identifier := JNum(1.0)]);
      BuildFrom([first, second]) == Ok(Dict([JNum(1.0)], [second]))
  {
    var first := JObj(map[Identifier := JBool(true)]);
    var second := JObj(map[Identifier := JNum(1.0)]);
    assert [first, second][..1] == [first];
    assert [first][..0] == [];
    var one: Index := Dict([JNum(1.0)], [first]);
    assert Subscript(first, Identifier) == Ok(JBool(true));
    assert Key(JBool(true)) == JNum(1.0);
    assert Upsert(EmptyIndex, JNum(1.0), first) == one;
    assert AddEntry(Ok(EmptyIndex), first) == Ok(one);
    assert BuildFrom([first]) == Ok(one);
    assert Position(one.keys, JNum(1.0)) == 0;
    assert Subscript(second, Identifier) == Ok(JNum(1.0));
    assert Upsert(one, JNum(1.0), second) == Dict([JNum(1.0)], [second]);
    assert AddEntry(Ok(one), second) == Ok(Dict([JNum(1.0)], [second]));
  }

  /** A four-channel colour socket value. */
  datatype Rgba = Rgba(r: real, g: real, b: real, a: real)

  /** The Principled BSDF inputs `material_to_json` reads and `json_to_material` sets. */
  datatype Bsdf = Bsdf(baseColor: Rgba, metallic: real, roughness: real)

  /** A Blender material by name, with its first Principled BSDF node if it uses nodes and has one. */
  datatype BlenderMaterial = BlenderMaterial(name: string, bsdf: Option<Bsdf>)

  /** A multiple of 0.001. */
  predicate Thousandths(x: real)
  {
    (x * 1000.0).Floor as real == x * 1000.0
  }

  /**
   * `round(x, 3)` on exact reals: the nearest multiple of 0.001, and of two
   * equally near ones the even multiple, as Python rounds.
   */
  function Round3(x: real): (r: real)
    ensures Thousandths(r)
    ensures -0.0005 <= r - x <= 0.0005
    ensures Thousandths(x) ==> r == x
  {
    var y := x * 1000.0;
    var f := y.Floor;
    var d := y - f as real;
    var k := if d < 0.5 then f else if d > 0.5 then f + 1 else if f % 2 == 0 then f else f + 1;
    assert (k as real / 1000.0) * 1000.0 == k as real;
    k as real / 1000.0
  }

  /** Rounding twice is rounding once. */
  lemma Round3Idempotent(x: real)
    ensures Round3(Round3(x)) == Round3(x)
  {
  }

  function Abs(x: real): real
  {
    if x < 0.0 then -x else x
  }

  /** No multiple of 0.001 lies nearer to `x` than its rounding. */
  lemma Round3Nearest(x: real, m: real)
    requires Thousandths(m)
    ensures Abs(Round3(x) - x) <= Abs(m - x)
  {
    var r := Round3(x);
    var k := (r * 1000.0).Floor;
    var a := (m * 1000.0).Floor;
    assert r == k as real / 1000.0;
    assert m == a as real / 1000.0;
    if a != k {
      assert a - k >= 1 || k - a >= 1;
      assert Abs(m - r) >= 0.001;
    }
  }

  /** Halfway cases go to the even multiple, as `round(0.0625, 3) == 0.062` and `round(0.1875, 3) == 0.188` do for these exactly representable ties. */
  lemma Round3Ties()
    ensures Round3(0.0625) == 0.062 && Round3(0.1875) == 0.188 && Round3(0.0016) == 0.002
  {
  }

  /** `material_to_json`: None without a Principled BSDF, else the record named after the material with rounded values. */
  function MaterialToJson(mat: BlenderMaterial): (r: Json)
    ensures mat.bsdf.None? <==> r == JNull
    ensures mat.bsdf.Some? ==> Indexable(r) && IdOf(r) == JStr(mat.name)
  {
    match mat.bsdf
    case None => JNull
    case Some(b) =>
      var c := b.baseColor;
      JObj(map[
        Identifier := JStr(mat.name),
        "color" := JArr([JNum(Round3(c.r)), JNum(Round3(c.g)), JNum(Round3(c.b))]),
        "metal" := JNum(Round3(b.metallic)),
        "roughness" := JNum(Round3(b.roughness))])
  }

  /** `write_material` as written: the record, or None, is stored under the material's name. */
  function WriteMaterialAsWritten(ix: Index, mat: BlenderMaterial): (r: Index)
    ensures Lookup(r, JStr(mat.name)) == Some(MaterialToJson(mat))
    ensures forall k :: k != JStr(mat.name) ==> Lookup(r, k) == Lookup(ix, k)
  {
    UpsertLookupAll(ix, JStr(mat.name), MaterialToJson(mat));
    Upsert(ix, JStr(mat.name), MaterialToJson(mat))
  }

  /** `write_material` storing only real records: a material without a Principled BSDF is skipped. */
  function WriteMaterial(ix: Index, mat: BlenderMaterial): (r: Index)
    ensures mat.bsdf.None? ==> r == ix
    ensures mat.bsdf.Some? ==> r == WriteMaterialAsWritten(ix, mat)
    ensures KeyedByIdentifier(ix) ==> KeyedByIdentifier(r)
  {
    if mat.bsdf.None? then ix
    else
      UpsertKeyed(ix, MaterialToJson(mat));
      WriteMaterialAsWritten(ix, mat)
  }

  /** Writing materials leaves alone every key that no written material (with a Principled BSDF) is named after. */
  lemma {:induction false} WriteAllKeepsOthers(ix: Index, mats: seq<BlenderMaterial>, k: Json)
    requires forall i :: 0 <= i < |mats| && mats[i].bsdf.Some? ==> JStr(mats[i].name) != k
    ensures Lookup(WriteAll(ix, mats), k) == Lookup(ix, k)
    decreases |mats|
  {
    if |mats| > 0 {
      WriteAllKeepsOthers(WriteMaterial(ix, mats[0]), mats[1..], k);
    }
  }

  /** The record of the last written material of a name is what the index holds under that name. */
  lemma {:induction false} WriteAllLastWins(ix: Index, mats: seq<BlenderMaterial>, i: nat)
    requires i < |mats| && mats[i].bsdf.Some?
    requires forall j :: i < j < |mats| && mats[j].bsdf.Some? ==> mats[j].name != mats[i].name
    ensures Lookup(WriteAll(ix, mats), JStr(mats[i].name)) == Some(MaterialToJson(mats[i]))
    decreases |mats|
  {
    if i == 0 {
      WriteAllKeepsOthers(WriteMaterial(ix, mats[0]), mats[1..], JStr(mats[0].name));
    } else {
      WriteAllLastWins(WriteMaterial(ix, mats[0]), mats[1..], i - 1);
    }
  }

  /**
   * The export loop as written: keys already present keep their places, each
   * material adds at most one key, every material's name becomes a key, and
   * with a Principled BSDF on every material it is the corrected loop.
   */
  function WriteAllAsWritten(ix: Index, mats: seq<BlenderMaterial>): (r: Index)
    ensures ix.keys <= r.keys
    ensures |r.keys| <= |ix.keys| + |mats|
    ensures forall i :: 0 <= i < |mats| ==> JStr(mats[i].name) in r.keys
    ensures (forall i :: 0 <= i < |mats| ==> mats[i].bsdf.Some?) ==> r == WriteAll(ix, mats)
    decreases |mats|
  {
    if |mats| == 0 then ix
    else
      var r := WriteAllAsWritten(WriteMaterialAsWritten(ix, mats[0]), mats[1..]);
      assert forall i :: 1 <= i < |mats| ==> mats[i] == mats[1..][i - 1];
      r
  }

  /** As written, writing materials leaves alone every key that no material is named after. */
  lemma {:induction false} WriteAllAsWrittenKeepsOthers(ix: Index, mats: seq<BlenderMaterial>, k: Json)
    requires forall i :: 0 <= i < |mats| ==> JStr(mats[i].name) != k
    ensures Lookup(WriteAllAsWritten(ix, mats), k) == Lookup(ix, k)
    decreases |mats|
  {
    if |mats| > 0 {
      WriteAllAsWrittenKeepsOthers(WriteMaterialAsWritten(ix, mats[0]), mats[1..], k);
    }
  }

  /** As written, the last material of a name decides what is stored under it: its record, or `null` without a BSDF. */
  lemma {:induction false} WriteAllAsWrittenLastWins(ix: Index, mats: seq<BlenderMaterial>, i: nat)
    requires i < |mats|
    requires forall j :: i < j < |mats| ==> mats[j].name != mats[i].name
    ensures Lookup(WriteAllAsWritten(ix, mats), JStr(mats[i].name)) == Some(MaterialToJson(mats[i]))
    decreases |mats|
  {
    if i == 0 {
      WriteAllAsWrittenKeepsOthers(WriteMaterialAsWritten(ix, mats[0]), mats[1..], JStr(mats[0].name));
    } else {
      WriteAllAsWrittenLastWins(WriteMaterialAsWritten(ix, mats[0]), mats[1..], i - 1);
    }
  }

  /** The export loop with the corrected `write_material`. */
  function WriteAll(ix: Index, mats: seq<BlenderMaterial>): (r: Index)
    ensures KeyedByIdentifier(ix) ==> KeyedByIdentifier(r)
    decreases |mats|
  {
    if |mats| == 0 then ix else WriteAll(WriteMaterial(ix, mats[0]), mats[1..])
  }

  /** The registry's contents once `ensure_file_exists` has run: a missing file holds the default data. */
  function Stored(file: Option<Json>): Json
  {
    if file.None? then DefaultData() else file.value
  }

  /** `MaterialFile.open`: a missing file is first created with the default data. */
  function Open(file: Option<Json>): (r: Result<Index>)
    ensures file.None? ==> r == Ok(EmptyIndex)
    ensures file.Some? ==> r == BuildIndex(file.value)
  {
    BuildIndex(Stored(file))
  }

  /**
   * "Export Materials" as written: open the registry (`build_index`), write
   * every material, save. A material without a Principled BSDF is saved as
   * `null`, which the next `build_index` cannot index.
   */
  function ExportMaterialsAsWritten(file: Option<Json>, mats: seq<BlenderMaterial>): (r: Result<Json>)
    ensures r.Ok? <==> Open(file).Ok?
    ensures (forall i :: 0 <= i < |mats| ==> mats[i].bsdf.Some?) ==> r == ExportMaterials(file, mats)
  {
    match Open(file)
    case Err(e) => Err(e)
    case Ok(ix) => Ok(Save(WriteAllAsWritten(ix, mats)))
  }

  /** "Export Materials" skipping materials without a Principled BSDF. */
  function ExportMaterials(file: Option<Json>, mats: seq<BlenderMaterial>): (r: Result<Json>)
    ensures r.Ok? <==> Open(file).Ok?
    ensures r.Ok? ==> Open(Some(r.value)).Ok?
  {
    match Open(file)
    case Err(e) => Err(e)
    case Ok(ix) =>
      BuildIndexKeyed(Stored(file));
      SaveThenBuild(WriteAll(ix, mats));
      Ok(Save(WriteAll(ix, mats)))
  }

  /** After exporting, reopening the registry gives exactly the index the export wrote. */
  lemma ExportThenReopen(file: Option<Json>, mats: seq<BlenderMaterial>)
    requires Open(file).Ok?
    ensures ExportMaterials(file, mats).Ok?
    ensures Open(Some(ExportMaterials(file, mats).value)) == Ok(WriteAll(Open(file).value, mats))
  {
    BuildIndexKeyed(Stored(file));
    SaveThenBuild(WriteAll(Open(file).value, mats));
  }

  lemma BuildIndexKeyed(file: Json)
    requires BuildIndex(file).Ok?
    ensures KeyedByIdentifier(BuildIndex(file).value)
  {
    var defs := Subscript(file, GlobalDefinitions).value;
    var list := Subscript(defs, HsMaterials).value;
    if list.JArr? {
      BuildFromKeyed(list.items);
    }
  }

  /** Exporting one material without a Principled BSDF leaves a registry that no longer loads. */
  lemma NullEntryBreaksReload()
    ensures var saved := ExportMaterialsAsWritten(None, [BlenderMaterial("Material", None)]);
      saved.Ok? && Open(Some(saved.value)) == Err(TypeError)
    ensures var saved := ExportMaterials(None, [BlenderMaterial("Material", None)]);
      saved.Ok? && Open(Some(saved.value)) == Ok(EmptyIndex)
  {
    var written := WriteAllAsWritten(EmptyIndex, [BlenderMaterial("Material", None)]);
    assert written == Dict([JStr("Material")], [JNull]);
    assert [JNull][..0] == [];
  }

  /** Every stored value is a record `build_index` accepts or the `null` of a material without a BSDF. */
  ghost predicate NullOrIndexable(ix: Index)
  {
    forall i :: 0 <= i < |ix.vals| ==> ix.vals[i] == JNull || Indexable(ix.vals[i])
  }

  lemma UpsertNullOrIndexable(ix: Index, key: Json, value: Json)
    requires Hashable(key) && (value == JNull || Indexable(value))
    ensures NullOrIndexable(ix) ==> NullOrIndexable(Upsert(ix, key, value))
  {
  }

  lemma {:induction false} WriteAllAsWrittenNullOrIndexable(ix: Index, mats: seq<BlenderMaterial>)
    ensures NullOrIndexable(ix) ==> NullOrIndexable(WriteAllAsWritten(ix, mats))
    decreases |mats|
  {
    if |mats| > 0 {
      UpsertNullOrIndexable(ix, JStr(mats[0].name), MaterialToJson(mats[0]));
      WriteAllAsWrittenNullOrIndexable(WriteMaterialAsWritten(ix, mats[0]), mats[1..]);
    }
  }

  /** `build_index` over records and nulls raises TypeError as soon as there is a null. */
  lemma {:induction false} BuildFromNullFails(entries: seq<Json>)
    requires forall i :: 0 <= i < |entries| ==> entries[i] == JNull || Indexable(entries[i])
    requires JNull in entries
    ensures BuildFrom(entries) == Err(TypeError)
    decreases |entries|
  {
    var n := |entries| - 1;
    var front := entries[..n];
    assert forall i :: 0 <= i < |front| ==> front[i] == entries[i];
    if JNull in front {
      BuildFromNullFails(front);
    } else {
      BuildFromSucceeds(front);
      assert entries[n] == JNull;
      assert Subscript(entries[n], Identifier) == Err(TypeError);
    }
  }

  /**
   * As written, exporting any material without a Principled BSDF that is the
   * last of its name leaves a registry whose next `build_index` raises
   * TypeError.
   */
  lemma NullEntriesBreakReload(file: Option<Json>, mats: seq<BlenderMaterial>, i: nat)
    requires Open(file).Ok?
    requires i < |mats| && mats[i].bsdf.None?
    requires forall j :: i < j < |mats| ==> mats[j].name != mats[i].name
    ensures ExportMaterialsAsWritten(file, mats).Ok?
    ensures Open(Some(ExportMaterialsAsWritten(file, mats).value)) == Err(TypeError)
  {
    var ix := Open(file).value;
    BuildIndexKeyed(Stored(file));
    assert NullOrIndexable(ix);
    var w := WriteAllAsWritten(ix, mats);
    WriteAllAsWrittenNullOrIndexable(ix, mats);
    WriteAllAsWrittenLastWins(ix, mats, i);
    var p := Position(w.keys, JStr(mats[i].name));
    assert w.vals[p] == JNull;
    BuildFromNullFails(w.vals);
  }

  /** What `json_to_material` leaves on the material it gets or creates: its name and its new Principled BSDF's inputs. */
  datatype MaterialParams = MaterialParams(name: string, bsdf: Bsdf)

  /** `data.get(key, default)`: AttributeError unless `data` is a dict. */
  function GetOr(data: Json, key: string, default: Json): (r: Result<Json>)
    ensures r.Ok? <==> data.JObj?
    ensures data.JObj? && key in data.fields ==> r == Ok(data.fields[key])
    ensures data.JObj? && key !in data.fields ==> r == Ok(default)
  {
    match data
    case JObj(fields) => Ok(if key in fields then fields[key] else default)
    case _ => Err(AttributeError)
  }

  /** A value a float socket accepts: a number, or a bool, which converts to 1.0 or 0.0. */
  function AsFloat(j: Json): (r: Result<real>)
    ensures r.Ok? <==> j.JNum? || j.JBool?
    ensures j.JNum? ==> r == Ok(j.n)
    ensures j.JBool? ==> r == Ok(if j.b then 1.0 else 0.0)
    ensures r.Err? ==> r.error == ApiError
  {
    match j
    case JNum(n) => Ok(n)
    case JBool(b) => Ok(if b then 1.0 else 0.0)
    case _ => Err(ApiError)
  }

  /**
   * `default_value = (*color, 1.0)` on the four-channel Base Color: the
   * unpacked items plus 1.0 must be four floats, so the colour must be a list
   * of exactly three numbers.
   */
  function AsColor(color: Json): (r: Result<Rgba>)
    ensures r.Ok? <==> (color.JArr? && |color.items| == 3 &&
      forall i :: 0 <= i < 3 ==> AsFloat(color.items[i]).Ok?)
    ensures r.Ok? ==> r.value == Rgba(AsFloat(color.items[0]).value, AsFloat(color.items[1]).value,
                                       AsFloat(color.items[2]).value, 1.0)
    ensures r.Err? ==> r.error == ApiError
  {
    match color
    case JArr(items) =>
      if |items| != 3 then Err(ApiError)
      else
        (match (AsFloat(items[0]), AsFloat(items[1]), AsFloat(items[2]))
         case (Ok(r), Ok(g), Ok(b)) => Ok(Rgba(r, g, b, 1.0))
         case _ => Err(ApiError))
    // a string unpacks to characters and a dict to its keys, which no float
    // socket takes; anything else does not unpack at all
    case _ => Err(ApiError)
  }

  const White: Json := JArr([JNum(1.0), JNum(1.0), JNum(1.0)])

  /**
   * `json_to_material`: read the four fields with their defaults, look the
   * material up by name (Blender's `get` takes only a string), and set the
   * shader inputs, each of which refuses a value of the wrong type or length.
   */
  function JsonToMaterial(data: Json): (r: Result<MaterialParams>)
    ensures !data.JObj? ==> r == Err(AttributeError)
    ensures data.JObj? ==>
      var name := GetOr(data, Identifier, JStr("Material")).value;
      (r.Ok? <==> name.JStr? && AsColor(GetOr(data, "color", White).value).Ok?
                  && AsFloat(GetOr(data, "metal", JNum(0.0)).value).Ok?
                  && AsFloat(GetOr(data, "roughness", JNum(0.5)).value).Ok?)
    ensures r.Ok? ==> r.value.bsdf.baseColor.a == 1.0
    ensures r.Err? && data.JObj? ==> r.error == ApiError
  {
    if !data.JObj? then Err(AttributeError)
    else
      var name := GetOr(data, Identifier, JStr("Material")).value;
      if !name.JStr? then Err(ApiError)
      else
        match (AsColor(GetOr(data, "color", White).value),
               AsFloat(GetOr(data, "metal", JNum(0.0)).value),
               AsFloat(GetOr(data, "roughness", JNum(0.5)).value))
        case (Ok(c), Ok(m), Ok(ro)) => Ok(MaterialParams(name.s, Bsdf(c, m, ro)))
        case (Err(e), _, _) => Err(e)
        case (_, Err(e), _) => Err(e)
        case (_, _, Err(e)) => Err(e)
  }

  lemma JsonToMaterialDefaults()
    ensures JsonToMaterial(JObj(map[])) == Ok(MaterialParams("Material", Bsdf(Rgba(1.0, 1.0, 1.0, 1.0), 0.0, 0.5)))
  {
  }

  /** A record whose identifier is a number cannot be imported, though `build_index` accepts it. */
  lemma NumericIdentifierFailsImport()
    ensures Indexable(JObj(map[Identifier := JNum(7.0)]))
    ensures JsonToMaterial(JObj(map[Identifier := JNum(7.0)])) == Err(ApiError)
  {
  }

  /** The material `json_to_material` leaves behind, as `material_to_json` would see it. */
  function Imported(p: MaterialParams): (r: BlenderMaterial)
    ensures r.name == p.name && r.bsdf == Some(p.bsdf)
  {
    BlenderMaterial(p.name, Some(p.bsdf))
  }

  /** Importing an exported record gives the name, the rounded colour (alpha 1), and the rounded metallic and roughness. */
  lemma ExportThenImport(mat: BlenderMaterial)
    requires mat.bsdf.Some?
    ensures var b := mat.bsdf.value;
      var c := b.baseColor;
      JsonToMaterial(MaterialToJson(mat)) ==
        Ok(MaterialParams(mat.name, Bsdf(Rgba(Round3(c.r), Round3(c.g), Round3(c.b), 1.0),
                                         Round3(b.metallic), Round3(b.roughness))))
  {
    var rec := MaterialToJson(mat);
    var c := mat.bsdf.value.baseColor;
    assert GetOr(rec, "color", White).value == JArr([JNum(Round3(c.r)), JNum(Round3(c.g)), JNum(Round3(c.b))]);
  }

  /** Exporting a material, importing it, and exporting again writes the same record: rounding is done once. */
  lemma ExportImportExport(mat: BlenderMaterial)
    requires mat.bsdf.Some?
    ensures JsonToMaterial(MaterialToJson(mat)).Ok?
    ensures MaterialToJson(Imported(JsonToMaterial(MaterialToJson(mat)).value)) == MaterialToJson(mat)
  {
    ExportThenImport(mat);
    var b := mat.bsdf.value;
    var c := b.baseColor;
    Round3Idempotent(c.r);
    Round3Idempotent(c.g);
    Round3Idempotent(c.b);
    Round3Idempotent(b.metallic);
    Round3Idempotent(b.roughness);
  }

  /** `json_to_material` over records in order; the first record that raises stops the import. */
  function ImportAll(records: seq<Json>): (r: Result<seq<MaterialParams>>)
    ensures r.Ok? <==> forall i :: 0 <= i < |records| ==> JsonToMaterial(records[i]).Ok?
    ensures r.Ok? ==> |r.value| == |records|
    ensures r.Ok? ==> forall i :: 0 <= i < |records| ==> JsonToMaterial(records[i]) == Ok(r.value[i])
    decreases |records|
  {
    if |records| == 0 then Ok([])
    else
      match JsonToMaterial(records[0])
      case Err(e) => Err(e)
      case Ok(p) =>
        match ImportAll(records[1..])
        case Err(e) =>
          assert exists i :: 1 <= i < |records| && JsonToMaterial(records[i]).Err? by {
            var j :| 0 <= j < |records[1..]| && JsonToMaterial(records[1..][j]).Err?;
            assert records[1..][j] == records[j + 1];
          }
          Err(e)
        case Ok(ps) =>
          assert forall i :: 1 <= i < |records| ==> records[i] == records[1..][i - 1];
          Ok([p] + ps)
  }

  /** "Import Materials": open the registry and import every record in key order. */
  function ImportMaterials(file: Option<Json>): (r: Result<seq<MaterialParams>>)
    ensures Open(file).Err? ==> r == Err(Open(file).error)
    ensures Open(file).Ok? ==> var records := GetMaterials(Open(file).value);
      && (r.Ok? <==> forall i :: 0 <= i < |records| ==> JsonToMaterial(records[i]).Ok?)
      && (r.Ok? ==> (|r.value| == |records| &&
            forall i :: 0 <= i < |records| ==> JsonToMaterial(records[i]) == Ok(r.value[i])))
  {
    match Open(file)
    case Err(e) => Err(e)
    case Ok(ix) => ImportAll(GetMaterials(ix))
  }

  /** Every record of the index imports without raising. */
  ghost predicate AllImport(ix: Index)
  {
    forall i :: 0 <= i < |ix.vals| ==> JsonToMaterial(ix.vals[i]).Ok?
  }

  lemma UpsertAllImport(ix: Index, key: Json, value: Json)
    requires Hashable(key) && AllImport(ix) && JsonToMaterial(value).Ok?
    ensures AllImport(Upsert(ix, key, value))
  {
  }

  /** Writing materials keeps every record importable: each written record is one `json_to_material` accepts. */
  lemma {:induction false} WriteAllImports(ix: Index, mats: seq<BlenderMaterial>)
    requires AllImport(ix)
    ensures AllImport(WriteAll(ix, mats))
    decreases |mats|
  {
    if |mats| > 0 {
      if mats[0].bsdf.Some? {
        ExportThenImport(mats[0]);
        UpsertAllImport(ix, JStr(mats[0].name), MaterialToJson(mats[0]));
      }
      WriteAllImports(WriteMaterial(ix, mats[0]), mats[1..]);
    }
  }

  /** A registry whose records all import still imports in full after an export; a fresh registry always does. */
  lemma ExportThenImportAll(file: Option<Json>, mats: seq<BlenderMaterial>)
    requires Open(file).Ok? && AllImport(Open(file).value)
    ensures ExportMaterials(file, mats).Ok?
    ensures ImportMaterials(Some(ExportMaterials(file, mats).value)).Ok?
  {
    ExportThenReopen(file, mats);
    WriteAllImports(Open(file).value, mats);
  }

  /** `MaterialFile.get_default_path`: the same location as `get_material_file_path`. */
  function DefaultPath(blend: Path): (r: Path)
    ensures r == MaterialFilePath(blend)
  {
    Join3(Parent(Parent(blend)), "hammerstone", "shared", "blender_materials.json")
  }
}

=== FILE: naming.dfy ===
/**
 * Naming conventions that turn a mesh object's name into the name of its
 * exported part (`get_model_name`) or of the placeholder empty that stands
 * in for it (`get_empty_name`).
 */
module Naming {
  import opened Text

  /** `get_model_name`: the text before the first '.', then before the first '_'. */
  function ModelName(meshName: string): (r: string)
    ensures r <= meshName
    ensures '.' !in r && '_' !in r
    ensures |r| == |meshName| || meshName[|r|] == '.' || meshName[|r|] == '_'
  {
    var name := if '.' in meshName then FieldBefore(meshName, '.') else meshName;
    if '_' in name then FieldBefore(name, '_') else name
  }

  /** Any prefix free of '.' and '_' that stops at a separator or at the end is the model name. */
  lemma ModelNameUnique(meshName: string, p: string)
    requires p <= meshName && '.' !in p && '_' !in p
    requires |p| == |meshName| || meshName[|p|] == '.' || meshName[|p|] == '_'
    ensures ModelName(meshName) == p
  {
    var r := ModelName(meshName);
    assert forall i :: 0 <= i < |r| && i < |p| ==> r[i] == p[i];
  }

  lemma ModelNameIdempotent(meshName: string)
    ensures ModelName(ModelName(meshName)) == ModelName(meshName)
  {
    var r := ModelName(meshName);
    ModelNameUnique(r, r);
  }

  /**
   * The base of an empty's name: the text before the first '.', and then,
   * when it holds a '_', the segment after the first '_' (`split("_")[1]`).
   */
  function EmptyBase(meshName: string): (r: string)
    ensures '.' !in r && '_' !in r
  {
    var name := if '.' in meshName then FieldBefore(meshName, '.') else meshName;
    if '_' in name then FieldBefore(FieldAfter(name, '_'), '_') else name
  }

  /** Cutting at the first '.' keeps the text before it, whatever follows. */
  lemma CutAtDot(stem: string, tail: string)
    requires '.' !in stem
    requires tail == [] || tail[0] == '.'
    ensures (if '.' in stem + tail then FieldBefore(stem + tail, '.') else stem + tail) == stem
  {
    if tail != [] {
      FindAfterPrefix(stem, '.', tail[1..]);
      assert stem + tail == stem + ['.'] + tail[1..];
    }
  }

  /** A name `pre_base[_more][.tail]` has empty base `base`. */
  lemma EmptyBaseOfSegments(pre: string, base: string, more: string, tail: string)
    requires '.' !in pre && '.' !in base && '.' !in more
    requires '_' !in pre && '_' !in base
    requires more == [] || more[0] == '_'
    requires tail == [] || tail[0] == '.'
    ensures EmptyBase(pre + "_" + base + more + tail) == base
  {
    var stem := pre + "_" + base + more;
    assert pre + "_" + base + more + tail == stem + tail;
    CutAtDot(stem, tail);
    assert stem == pre + ['_'] + (base + more);
    assert stem[|pre|] == '_';
    FieldsAroundPrefix(pre, '_', base + more);
    if more != [] {
      assert base + more == base + ['_'] + more[1..];
      FieldsAroundPrefix(base, '_', more[1..]);
    } else {
      assert base + more == base;
      FieldBeforeAbsent(base, '_');
    }
  }

  /** `a_b` has empty base `b`. */
  lemma EmptyBaseOfPair(a: string, b: string)
    requires '.' !in a && '_' !in a && '.' !in b && '_' !in b
    ensures EmptyBase(a + "_" + b) == b
  {
    EmptyBaseOfSegments(a, b, "", "");
    assert a + "_" + b + "" + "" == a + "_" + b;
  }

  /** An empty's own name, read as a mesh name, has its counter as base. */
  lemma EmptyBaseOfLabel(b: string, index: nat)
    requires '.' !in b && '_' !in b
    ensures EmptyBase(EmptyLabel(b, index)) == NatToString(index)
    ensures AllDigits(EmptyBase(EmptyLabel(b, index)))
  {
    var d := NatToString(index);
    EmptyBaseOfSegments(b, d, "", "");
    assert b + "_" + d + "" + "" == EmptyLabel(b, index);
  }

  /** A name without '_' before its first '.' is its own base up to that '.'. */
  lemma EmptyBaseWithoutUnderscore(stem: string, tail: string)
    requires '.' !in stem && '_' !in stem
    requires tail == [] || tail[0] == '.'
    ensures EmptyBase(stem + tail) == stem
  {
    CutAtDot(stem, tail);
  }

  /** The text of an empty's name: `f"{base}_{index}"`. */
  function EmptyLabel(base: string, index: nat): string
  {
    base + "_" + NatToString(index)
  }

  predicate AllDigits(s: string)
  {
    forall k :: 0 <= k < |s| ==> IsDigit(s[k])
  }

  /** Splits an empty's name back into its base and its counter. */
  function ParseEmptyLabel(emptyName: string): (string, nat)
  {
    var i := Find(emptyName, '_');
    var digits := if i < |emptyName| then emptyName[i + 1..] else [];
    (emptyName[..i], if AllDigits(digits) then ParseNat(digits) else 0)
  }

  lemma ParseEmptyLabelRoundTrip(base: string, index: nat)
    requires '_' !in base
    ensures ParseEmptyLabel(EmptyLabel(base, index)) == (base, index)
  {
    var emptyName := EmptyLabel(base, index);
    FindAfterPrefix(base, '_', NatToString(index));
    assert emptyName[..|base|] == base;
    assert emptyName[|base| + 1..] == NatToString(index);
    ParseNatToString(index);
  }

  /** Labels built from '_'-free bases are equal only for equal bases and counters. */
  lemma EmptyLabelInjective(b1: string, i1: nat, b2: string, i2: nat)
    requires '_' !in b1 && '_' !in b2
    requires EmptyLabel(b1, i1) == EmptyLabel(b2, i2)
    ensures b1 == b2 && i1 == i2
  {
    ParseEmptyLabelRoundTrip(b1, i1);
    ParseEmptyLabelRoundTrip(b2, i2);
  }

  /** The per-base counters `get_empty_name` keeps; a missing base counts as 0. */
  function Count(counts: map<string, nat>, base: string): nat
  {
    if base in counts then counts[base] else 0
  }

  /**
   * `get_empty_name`: bumps the counter of the mesh's base and names the
   * empty after the base and the new count.
   */
  function EmptyName(meshName: string, counts: map<string, nat>): (r: (string, map<string, nat>))
    ensures var base := EmptyBase(meshName);
      && r.1.Keys == counts.Keys + {base}
      && r.1[base] == Count(counts, base) + 1
      && (forall b :: b in counts && b != base ==> r.1[b] == counts[b])
      && r.0 == EmptyLabel(base, r.1[base])
  {
    var base := EmptyBase(meshName);
    var index := Count(counts, base) + 1;
    (EmptyLabel(base, index), counts[base := index])
  }

  /** The name of an empty reads back as its mesh's base and the updated counter. */
  lemma EmptyNameParses(meshName: string, counts: map<string, nat>)
    ensures var r := EmptyName(meshName, counts);
      ParseEmptyLabel(r.0) == (EmptyBase(meshName), Count(counts, EmptyBase(meshName)) + 1)
  {
    ParseEmptyLabelRoundTrip(EmptyBase(meshName), Count(counts, EmptyBase(meshName)) + 1);
  }
}

=== FILE: paths.dfy ===
/**
 * The add-on's path rules: where exported `.glb` files go and where the
 * shared material registry lives, both derived from the path of the open
 * `.blend` file. Paths are pathlib paths already split into an anchor and
 * components; whether a file exists on disk is a parameter.
 */
module Paths {
  import opened Wrappers
  import opened Text

  /** A pathlib path: an anchor ("" when relative, "/" for the POSIX root) and its components. */
  datatype Path = Path(anchor: string, parts: seq<string>)

  /** A single path component as pathlib stores it. */
  predicate IsComponent(c: string)
  {
    c != "" && c != "." && '/' !in c
  }

  predicate Valid(p: Path)
  {
    forall i :: 0 <= i < |p.parts| ==> IsComponent(p.parts[i])
  }

  /** `Path.parent`: drops the last component; an anchor alone is its own parent. */
  function Parent(p: Path): (r: Path)
    ensures r.anchor == p.anchor
    ensures r.parts <= p.parts
    ensures |p.parts| > 0 ==> |r.parts| == |p.parts| - 1
    ensures Valid(p) ==> Valid(r)
  {
    if |p.parts| == 0 then p else Path(p.anchor, p.parts[..|p.parts| - 1])
  }

  /** `Path.name`: the last component, or "" for an anchor alone. */
  function Name(p: Path): string
  {
    if |p.parts| == 0 then "" else p.parts[|p.parts| - 1]
  }

  /** The components pathlib makes of a relative string: split on '/', dropping "" and ".". */
  function Components(s: string): (r: seq<string>)
    ensures forall i :: 0 <= i < |r| ==> IsComponent(r[i])
    decreases |s|
  {
    var head := FieldBefore(s, '/');
    var first := if head == "" || head == "." then [] else [head];
    if '/' in s then first + Components(FieldAfter(s, '/')) else first
  }

  /** `p / s`: a string starting with '/' restarts from the root; otherwise its components are appended. */
  function Join(p: Path, s: string): Path
  {
    if |s| > 0 && s[0] == '/' then Path("/", Components(s)) else Path(p.anchor, p.parts + Components(s))
  }

  lemma JoinComponent(p: Path, c: string)
    requires IsComponent(c)
    ensures Join(p, c) == Path(p.anchor, p.parts + [c])
    ensures Valid(p) ==> Valid(Join(p, c))
    ensures Parent(Join(p, c)) == p
    ensures Name(Join(p, c)) == c
  {
    assert FieldBefore(c, '/') == c;
    assert (p.parts + [c])[..|p.parts|] == p.parts;
  }

  /** Index of the last `c` in `s`, or -1: Python's `s.rfind(c)`. */
  function LastIndex(s: string, c: char): (i: int)
    ensures -1 <= i < |s|
    ensures i >= 0 ==> s[i] == c
    ensures forall j :: i < j < |s| ==> s[j] != c
  {
    if |s| == 0 then -1
    else if s[|s| - 1] == c then |s| - 1
    else LastIndex(s[..|s| - 1], c)
  }

  /** `PurePath.suffix` (Python 3.11): from the last '.', unless it leads or ends the name. */
  function Suffix(name: string): string
  {
    var i := LastIndex(name, '.');
    if 0 < i < |name| - 1 then name[i..] else ""
  }

  /** `PurePath.stem` (Python 3.11): the name without its suffix. */
  function Stem(name: string): (r: string)
    ensures r + Suffix(name) == name
    ensures Suffix(name) == "" || (Suffix(name)[0] == '.' && '.' !in Suffix(name)[1..])
    ensures '/' !in name ==> '/' !in r
    ensures name != "" ==> r != ""
  {
    var i := LastIndex(name, '.');
    if 0 < i < |name| - 1 then
      assert name == name[..i] + name[i..];
      assert forall j :: 0 <= j < |name[i..][1..]| ==> name[i..][1..][j] == name[i + 1 + j];
      name[..i]
    else name
  }

  /**
   * `get_export_folder`: the `.blend` file's directory, or the sibling
   * `models` directory when that directory is named `blends` in any case.
   * None stands for the `False` returned when the file is missing.
   */
  function ExportFolder(blend: Path, onDisk: bool): (r: Option<Path>)
    ensures r.Some? <==> onDisk
    ensures r.Some? && ToLower(Name(Parent(blend))) == "blends" ==>
              Parent(r.value) == Parent(Parent(blend)) && Name(r.value) == "models"
    ensures r.Some? && ToLower(Name(Parent(blend))) != "blends" ==> r.value == Parent(blend)
  {
    if !onDisk then None
    else
      var dir := Parent(blend);
      if ToLower(Name(dir)) == "blends" then
        JoinComponent(Parent(dir), "models");
        Some(Join(Parent(dir), "models"))
      else Some(dir)
  }

  lemma ExportFolderNeverBlends(blend: Path)
    ensures ToLower(Name(ExportFolder(blend, true).value)) != "blends"
  {
    var dir := Parent(blend);
    if ToLower(Name(dir)) == "blends" {
      JoinComponent(Parent(dir), "models");
      assert ToLower("models")[0] == 'm';
    }
  }

  /** A `.blend` saved inside its own export folder exports into that same folder. */
  lemma ExportFolderStable(blend: Path, c: string)
    requires IsComponent(c)
    ensures ExportFolder(Join(ExportFolder(blend, true).value, c), true) == ExportFolder(blend, true)
  {
    var f := ExportFolder(blend, true).value;
    JoinComponent(f, c);
    ExportFolderNeverBlends(blend);
  }

  /**
   * `get_export_path` as written: the folder joined with the file's stem.
   * A missing file makes the folder `False`, and `False / stem` raises TypeError.
   */
  function ExportPathAsWritten(blend: Path, onDisk: bool): (r: Result<Path>)
    ensures r.Err? <==> !onDisk
    ensures r.Err? ==> r.error == TypeError
    ensures r.Ok? ==> r.value == ExportPath(blend, onDisk).value
  {
    match ExportFolder(blend, onDisk)
    case None => Err(TypeError)
    case Some(folder) => Ok(Join(folder, Stem(Name(blend))))
  }

  /** `get_export_path` with the missing-file case passed through, so callers cancel. */
  function ExportPath(blend: Path, onDisk: bool): (r: Option<Path>)
    ensures r.Some? <==> onDisk
    ensures r.Some? && IsComponent(Stem(Name(blend))) ==>
              Parent(r.value) == ExportFolder(blend, onDisk).value && Name(r.value) == Stem(Name(blend))
  {
    match ExportFolder(blend, onDisk)
    case None => None
    case Some(folder) =>
      if IsComponent(Stem(Name(blend))) then JoinComponent(folder, Stem(Name(blend))); Some(Join(folder, Stem(Name(blend))))
      else Some(Join(folder, Stem(Name(blend))))
  }

  lemma ExportPathMissingFile(blend: Path)
    ensures ExportPathAsWritten(blend, false) == Err(TypeError)
    ensures ExportPath(blend, false) == None
  {
  }

  /** `root / a / b / c` for three plain components. */
  function Join3(root: Path, a: string, b: string, c: string): (r: Path)
    requires IsComponent(a) && IsComponent(b) && IsComponent(c)
    ensures r == Path(root.anchor, root.parts + [a, b, c])
    ensures Valid(root) ==> Valid(r)
  {
    JoinComponent(root, a);
    JoinComponent(Join(root, a), b);
    JoinComponent(Join(Join(root, a), b), c);
    Join(Join(Join(root, a), b), c)
  }

  /** Appending one component: the parent is the original path and the name is the component. */
  lemma AppendComponent(p: Path, c: string)
    ensures Parent(Path(p.anchor, p.parts + [c])) == p
    ensures Name(Path(p.anchor, p.parts + [c])) == c
  {
    assert (p.parts + [c])[..|p.parts|] == p.parts;
  }

  lemma MaterialFileShape(root: Path)
    ensures var r := Path(root.anchor, root.parts + ["hammerstone", "shared", "blender_materials.json"]);
      && Name(r) == "blender_materials.json"
      && Name(Parent(r)) == "shared"
      && Name(Parent(Parent(r))) == "hammerstone"
      && Parent(Parent(Parent(r))) == root
  {
    var p1 := Path(root.anchor, root.parts + ["hammerstone"]);
    var p2 := Path(root.anchor, p1.parts + ["shared"]);
    AppendComponent(root, "hammerstone");
    AppendComponent(p1, "shared");
    AppendComponent(p2, "blender_materials.json");
    assert p2.parts + ["blender_materials.json"] == root.parts + ["hammerstone", "shared", "blender_materials.json"];
  }

  /** The registry file: `<grandparent of the blend>/hammerstone/shared/blender_materials.json`. */
  function MaterialFilePath(blend: Path): (r: Path)
    ensures Name(r) == "blender_materials.json"
    ensures Name(Parent(r)) == "shared"
    ensures Name(Parent(Parent(r))) == "hammerstone"
    ensures Parent(Parent(Parent(r))) == Parent(Parent(blend))
    ensures Valid(blend) ==> Valid(r)
  {
    var root := Parent(Parent(blend));
    var r := Join3(root, "hammerstone", "shared", "blender_materials.json");
    MaterialFileShape(root);
    r
  }
}

=== FILE: scene.dfy ===
/** The slice of Blender's scene the operators read and write: named objects of a few kinds. */
module Scene {

  /** `Object.empty_display_type`. */
  datatype EmptyDisplay = PlainAxes | Arrows | SingleArrow | Circle | Cube | Sphere | Cone | Image

  /** `Object.type`, with the empty's display type attached to empties. */
  datatype Kind = Mesh | Empty(display: EmptyDisplay) | Camera | OtherKind

  datatype Object = Object(name: string, kind: Kind)
}

=== FILE: text.dfy ===
/** String helpers standing in for the Python `str` operations the add-on uses. */
module Text {

  /** ASCII lower-casing of one character. */
  function LowerChar(c: char): char
  {
    if 'A' <= c <= 'Z' then (c as int + 32) as char else c
  }

  /** `s.lower()`, restricted to ASCII letters. */
  function ToLower(s: string): (r: string)
    ensures |r| == |s|
    ensures forall i :: 0 <= i < |s| ==> r[i] == LowerChar(s[i])
  {
    seq(|s|, i requires 0 <= i < |s| => LowerChar(s[i]))
  }

  lemma ToLowerIdempotent(s: string)
    ensures ToLower(ToLower(s)) == ToLower(s)
  {
    assert forall i :: 0 <= i < |s| ==> LowerChar(LowerChar(s[i])) == LowerChar(s[i]);
  }

  /** Substring test by position: the meaning of Python's `k in s`. */
  ghost predicate Occurs(k: string, s: string)
  {
    exists i :: OccursAt(k, s, i)
  }

  ghost predicate OccursAt(k: string, s: string, i: int)
  {
    0 <= i <= |s| - |k| && s[i..i + |k|] == k
  }

  /** Python's `k in s` for strings, scanning start positions left to right. */
  function Contains(s: string, k: string): bool
    decreases |s|
  {
    if k <= s then true
    else if |s| == 0 then false
    else Contains(s[1..], k)
  }

  lemma OccursAtStart(k: string, s: string)
    ensures OccursAt(k, s, 0) <==> k <= s
  {
    if k <= s {
      assert s[0..|k|] == k;
    }
  }

  lemma {:induction false} ContainsMeansOccurs(s: string, k: string)
    ensures Contains(s, k) <==> Occurs(k, s)
    decreases |s|
  {
    OccursAtStart(k, s);
    if k <= s {
    } else if |s| == 0 {
      assert forall i :: !OccursAt(k, s, i);
    } else {
      ContainsMeansOccurs(s[1..], k);
      if Occurs(k, s) {
        var i :| OccursAt(k, s, i);
        assert s[1..][i - 1..i - 1 + |k|] == k;
        assert OccursAt(k, s[1..], i - 1);
      }
      if Occurs(k, s[1..]) {
        var i :| OccursAt(k, s[1..], i);
        assert s[i + 1..i + 1 + |k|] == k;
        assert OccursAt(k, s, i + 1);
      }
    }
  }

  /** Index of the first `c` in `s`, or `|s|` when `c` does not occur. */
  function Find(s: string, c: char): (i: nat)
    ensures i <= |s|
    ensures c !in s[..i]
    ensures i < |s| ==> s[i] == c
    ensures i == |s| <==> c !in s
  {
    if |s| == 0 then 0
    else if s[0] == c then 0
    else
      var j := Find(s[1..], c);
      assert s[..j + 1] == [s[0]] + s[1..][..j];
      j + 1
  }

  /** `s.split(c)[0]`: the text before the first `c`. */
  function FieldBefore(s: string, c: char): (r: string)
    ensures r <= s
    ensures c !in r
    ensures |r| == |s| || s[|r|] == c
  {
    s[..Find(s, c)]
  }

  /** The text after the first `c`; all of `s` is consumed when `c` is absent. */
  function FieldAfter(s: string, c: char): (r: string)
    ensures c in s ==> s == FieldBefore(s, c) + [c] + r
    ensures c !in s ==> r == []
  {
    var i := Find(s, c);
    if i < |s| then
      assert s == s[..i] + [c] + s[i + 1..];
      s[i + 1..]
    else []
  }

  lemma FindAfterPrefix(p: string, c: char, t: string)
    requires c !in p
    ensures Find(p + [c] + t, c) == |p|
  {
    var s := p + [c] + t;
    assert s[..|p|] == p;
    assert s[|p|] == c;
  }

  lemma FieldsAroundPrefix(p: string, c: char, t: string)
    requires c !in p
    ensures FieldBefore(p + [c] + t, c) == p
    ensures FieldAfter(p + [c] + t, c) == t
  {
    var s := p + [c] + t;
    FindAfterPrefix(p, c, t);
    assert s[..|p|] == p;
    assert s[|p| + 1..] == t;
  }

  lemma FieldBeforeAbsent(s: string, c: char)
    requires c !in s
    ensures FieldBefore(s, c) == s
  {
  }

  predicate IsDigit(c: char)
  {
    '0' <= c <= '9'
  }

  function DigitChar(d: nat): (c: char)
    requires d < 10
    ensures IsDigit(c)
  {
    ('0' as int + d) as char
  }

  function DigitValue(c: char): (d: nat)
    requires IsDigit(c)
    ensures d < 10
  {
    c as int - '0' as int
  }

  /** `str(n)` for a natural number: decimal digits, most significant first. */
  function NatToString(n: nat): (r: string)
    ensures |r| >= 1
    ensures forall i :: 0 <= i < |r| ==> IsDigit(r[i])
  {
    if n < 10 then [DigitChar(n)] else NatToString(n / 10) + [DigitChar(n % 10)]
  }

  /** `int(s)` for a string of ASCII digits. */
  function ParseNat(s: string): nat
    requires forall i :: 0 <= i < |s| ==> IsDigit(s[i])
  {
    if |s| == 0 then 0 else ParseNat(s[..|s| - 1]) * 10 + DigitValue(s[|s| - 1])
  }

  lemma {:induction false} ParseNatToString(n: nat)
    ensures ParseNat(NatToString(n)) == n
  {
    var r := NatToString(n);
    if n < 10 {
      assert r[..0] == [];
    } else {
      ParseNatToString(n / 10);
      assert r[..|r| - 1] == NatToString(n / 10);
    }
  }
}

=== FILE: wrappers.dfy ===
/** Failure-carrying return types shared by the model. */
module Wrappers {

  datatype Option<+T> = None | Some(value: T)

  /** The Python exceptions the modelled code can raise. */
  datatype Error =
    | TypeError        // an operation applied to a value of the wrong type
    | KeyError         // a dict subscript with a missing key
    | UnboundLocalError // a local read before any assignment
    | AttributeError   // a method looked up on a value that lacks it
    | ApiError         // Blender's Python API refusing a value of the wrong type or length

  datatype Result<+T> = Ok(value: T) | Err(error: Error)
}
